=== FILE: README.md ===
# investpy certificates: a Dafny model of the fetch core

This project models the pure core of `investpy/certificates.py`. That file fetches
price histories of structured certificates from Investing.com. The model covers:

- the argument checks that `get_certificate_recent_data` and
  `get_certificate_historical_data` run before doing any work;
- the split of a historical date range into windows whose start and end years differ
  by at most twenty;
- the lookup of a certificate by country and name in the static certificate catalog;
- `search_certificates`;
- the decoding of the provider's results table, row by row: the "No results found"
  row, the column order, comma stripping and per-window reversal;
- the assembly of the windows into a table or a JSON document.

The network is a parameter. A `provider: Request -> Response` answers every request,
and each call returns a `Run` holding the requests it sent, in order, and how it ended.
The catalog is a value (`Certificates.Catalog`). Dates arrive already parsed. Prices and
timestamps stay the provider's strings.

Modules, one per file, leaves first:

- `Errors` (errors.dfy): the error kinds, `Option` and `Result`.
- `Text` (text.dfy): `str.lower`, `str.strip`, accent folding (`unidecode`), comma
  removal, substring search.
- `Dates` (dates.dfy): calendar dates, their order, and `date.replace(year=...)`.
- `DateWindows` (partition.dfy): the window partition and the source's loop computing it.
- `Validation` (validation.dfy): the argument checks.
- `Certificates` (certificates.dfy): the catalog, name resolution and search.
- `Decoder` (decoder.dfy): decoding of table rows and windows.
- `Fetch` (fetch.dfy): the two fetchers.
- `Scenarios` (scenarios.dfy): worked calls against a one-row catalog.

The code and the library's own description of it differ in a few places. The model
follows the code:

- JSON output of the historical fetcher holds only the first window that produced data
  (`final[0]`). The table holds every window. `Fetch.JsonIsFirstPartOfTable` states how
  the two relate. They are equal only when a single window produced data.
- The final window is `[cursor, to_date]` whenever the years differ by at most twenty.
  It can therefore be longer than twenty calendar years, for example 2000-01-01 to
  2020-12-31. `DateWindows.PartitionShape` states this single-window case.
- Whether a window is kept depends on its LAST row only. A "No results found" row
  clears the data flag and any other row sets it. Data rows before a trailing
  sentinel are dropped with the window.
- An empty row set is the scraping error ERR#0004 on both paths, not a skip. An empty
  response body is skipped on the historical path. On the recent path the HTML parser
  rejects it.
- A Feb 29 start moved twenty years into a common year makes `date.replace` raise.
  The model returns `DateOutOfRange` for it instead of excluding it.
- Adjacent windows share their boundary day: each window starts on the day the
  previous one ended, and both ends are sent. That day is requested twice and can
  appear twice in the concatenated table.
- The certificate is picked with `idxmax` over an exact lower-case comparison. That
  is not the accent-folded comparison that decides membership (see Findings). The
  fetchers take the lookup as a parameter: `Lookup.AsWritten` runs the source's
  resolution and `Lookup.Corrected` runs the fixed one.

## Model

| member | source | states |
|---|---|---|
| Dates.ReplaceYear | investpy/certificates.py:467-472 | moving a date to another year keeps month and day; it fails exactly for Feb 29 moved into a common year (or out of years 1..9999), with `DateOutOfRange` |
| DateWindows.Partition | investpy/certificates.py:455-481 | the windows start at `from_date`, end at `to_date`, are contiguous (each starts where the previous ended) and each runs forward between valid dates; the only failure is `DateOutOfRange`, and a cursor that cannot move twenty years fails the whole partition |
| DateWindows.PartitionShape | investpy/certificates.py:461-481 | a range whose years differ by at most 20 is the single window `[from, to]`; otherwise every window but the last spans exactly 20 years, window i starts 20·i years after `from`, and the count is ⌈diff/20⌉ |
| DateWindows.PartitionSucceedsOffLeapDay | investpy/certificates.py:464-472 | unless `from_date` is Feb 29, partitioning never fails |
| DateWindows.LeapDayIntoCommonYearFails | investpy/certificates.py:467 | 1880-02-29 to 1901-01-01 fails: 1900 has no Feb 29 |
| DateWindows.PartitionCovers | investpy/certificates.py:461-481 | every date of `[from, to]` lies in some window |
| DateWindows.WindowInsideRange | investpy/certificates.py:461-481 | every window lies inside `[from, to]` |
| DateWindows.PartitionCoversExactly | investpy/certificates.py:461-481 | a date lies in some window exactly when it lies in `[from, to]` |
| DateWindows.ContiguousOrdered | investpy/certificates.py:470-472 | in contiguous forward windows, window i ends no later than any later window starts |
| DateWindows.PartitionOrdered | investpy/certificates.py:461-481 | the windows follow one another: each ends no later than every later one starts; adjacent windows share their boundary day |
| DateWindows.SplitDateRange | investpy/certificates.py:459-481 | the source's `while flag` loop, with the cursor advanced by `replace(year + 20)`, computes exactly `Partition`, including its failure |
| Validation.ParseOrder | investpy/certificates.py:427-428 | accepted exactly for ascending, asc, descending, desc, otherwise ERR#0003; the first two mean ascending |
| Validation.ParseInterval | investpy/certificates.py:430-437 | accepted exactly for Daily, Weekly, Monthly, otherwise ERR#0073 |
| Validation.IntervalNameRoundTrip | investpy/certificates.py:436-437 | parsing an interval name gives the interval back, and a parsed interval's name is the input |
| Validation.ValidateRecent | investpy/certificates.py:219-244 | succeeds iff certificate non-empty, country given, order and interval accepted; each failure carries the code of the first failing check (100, 39, 3, 73); the query keeps the caller's values |
| Validation.ValidateHistorical | investpy/certificates.py:412-453 | the shared checks first, then ERR#0011/ERR#0012 for unparsable dates and ERR#0032 unless `from` is strictly before `to`; success iff all pass, with the query's dates the caller's |
| Validation.EmptyRangeRejected | investpy/certificates.py:452-453 | `to <= from` is rejected with ERR#0032 however good the other arguments |
| Certificates.SearchFieldsAreUnhiddenColumns | investpy/certificates.py:655-657 | the search fields are exactly the catalog columns other than `id` and `tag`, in file order |
| Certificates.FirstHit | investpy/certificates.py:509-511 | the index found is the first row of the country the comparison accepts; none is found only when no row is accepted |
| Certificates.ResolveAsWritten | investpy/certificates.py:498-511 | unknown country → ERR#0034; a name whose folded form matches no row of the country → ERR#0101; otherwise the first exact lower-case match, or the country's first row when there is none |
| Certificates.Resolve | investpy/certificates.py:498-511 | same failures as the source; on success the row picked always has the input's folded name: the first exact lower-case match when there is one, as the source picks, otherwise the first row whose folded name equals the folded input |
| Certificates.ExactMatchResolves | investpy/certificates.py:509-511 | when some name of the country equals the stripped, lower-cased input, both resolutions return the first such row |
| Certificates.ResolveDiffersOnlyOnFallback | investpy/certificates.py:506-511 | the two resolutions differ only when both succeed and no name of the country equals the lower-cased input exactly |
| Certificates.UniqueFoldedNameResolves | investpy/certificates.py:498-511 | when exactly one row of the country has the accent-folded input name, every spelling that folds to that name resolves to that row |
| Certificates.ResolveIgnoresSpelling | investpy/certificates.py:498-506 | whether a certificate is found ignores case, surrounding blanks and accents; inputs equal after stripping and lower-casing resolve to the same row |
| Certificates.ResolveAsWrittenOnPlainNames | investpy/certificates.py:506-511 | without accents in the input and the country's names, the source's resolution equals `Resolve` |
| Certificates.AccentOnlyMatchPicksFirstRow | investpy/certificates.py:506-511 | with rows "a" and "é" in one country, input "e" makes the source return row "a" while `Resolve` returns "é" |
| Certificates.ParseField | investpy/certificates.py:657-667 | a column name denotes a search field exactly when it is one of the eight searchable columns |
| Certificates.Matching | investpy/certificates.py:675-677 | never more listings than catalog rows; soundness, completeness and order are the lemmas below |
| Certificates.MatchingKeepsAll | investpy/certificates.py:675-677 | when every row matches, the result is every row's listing, in catalog order |
| Certificates.MatchingSound | investpy/certificates.py:675-677 | every listing kept contains the value in the field, ignoring case |
| Certificates.MatchingComplete | investpy/certificates.py:675-677 | every row whose field contains the value is kept |
| Certificates.MatchingNonEmpty | investpy/certificates.py:675-680 | something is kept exactly when some row matches |
| Certificates.MatchingAppend | investpy/certificates.py:677-683 | filtering works row by row, so the kept rows keep their catalog order |
| Certificates.Search | investpy/certificates.py:655-685 | empty field → ERR#0006, unknown field → ERR#0026, empty value → ERR#0017; otherwise success iff some row matches, with exactly the matching rows, else the no-results error |
| Text.Lower | investpy/certificates.py:503-504 | same length; every capital moves up 32 code points, every other character is kept, and no capital remains |
| Text.Strip | investpy/certificates.py:503 | the result occurs in the input right after the leading blanks, neither starts nor ends with a blank, and everything of the input before and after it is blank |
| Text.Fold | investpy/certificates.py:506 | no Latin-1 letter survives the folding and the result is never shorter than the input |
| Text.StripIdempotent | investpy/certificates.py:503 | stripping twice is stripping once |
| Text.FoldIdempotent | investpy/certificates.py:506 | accent folding is idempotent |
| Text.RemoveCommas | investpy/certificates.py:573-576 | the result has no comma and every other character occurs as often as in the input |
| Text.ContainsIffOccurs | investpy/certificates.py:675 | `Contains` holds exactly when the needle occurs at some position |
| Decoder.DecodeRow | investpy/certificates.py:565-579 | a row decodes iff it has five cells carrying values; the decoded prices hold no thousands separator; otherwise the row is malformed |
| Decoder.DecodeRowColumns | investpy/certificates.py:571-576 | cell 0 is the timestamp, cell 1 close, cell 2 open, cell 3 high, cell 4 low, each with commas removed |
| Decoder.DecodeEncodeRow | investpy/certificates.py:565-579 | decoding the provider's layout of a comma-free point gives the point back |
| Decoder.Arrange | investpy/certificates.py:581-585 | same length; under `ascending` position i holds the provider's point from the other end, under `descending` the provider's point i |
| Decoder.ArrangeOpposite | investpy/certificates.py:581-585 | `descending` keeps the provider's order and `ascending` is its exact reverse |
| Decoder.ScanRows | investpy/certificates.py:556-579 | the row loop gets through a window iff every row has a first cell and is either a well-formed data row or "No results found" on a window other than the last; a failure is a malformed row, or ERR#0102 on the last window only; the flag left after a window is set iff its last row is data; the points are the decoded rows other than "No results found", one per row, in row order; on the last window success means no sentinel row |
| Decoder.DecodeWindow | investpy/certificates.py:555-602 | an empty table is ERR#0004; a non-empty window succeeds iff every row has a first cell and is a well-formed data row or, on a window other than the last, "No results found"; a failing non-empty window reports a malformed row, or ERR#0102 on the last window only; a window is skipped iff its last row is "No results found"; a kept window's points are its decoded data rows, in row order; the last window either fails or yields data without any sentinel |
| Decoder.DataWindowInOrder | investpy/certificates.py:556-579 | a window of data rows yields one point per row, in provider order |
| Decoder.SentinelWindowSkipped | investpy/certificates.py:557-559 | a non-final window of "No results found" rows is skipped without error |
| Decoder.SentinelFatalOnLastWindow | investpy/certificates.py:557-561 | reaching a "No results found" row on the last window is ERR#0102 |
| Decoder.DecodeAll | investpy/certificates.py:303-322 | the recent row loop succeeds iff every row has a first cell, is not "No results found" and is well formed; then it gives each row's decoded point, in row order |
| Decoder.DecodeRecent | investpy/certificates.py:301-342 | an empty table is ERR#0004; a non-empty table succeeds iff every row has a first cell, is not "No results found" and is well formed, and then gives each row's decoded point, in row order |
| Decoder.RecentIsLastWindow | investpy/certificates.py:303-322 | the recent decoder gives the same result as the historical decoder on a final window |
| Fetch.WindowStep | investpy/certificates.py:544-602 | a status other than 200 is ERR#0015 with that status; an empty body skips the window; on an HTML body it fails exactly when the window's decoding does, with its error; a kept window's points are the decoded window put in the requested order; a skip means an empty body or a window ending in "No results found" |
| Fetch.FetchWindows | investpy/certificates.py:517-602 | the requests sent are the windows' requests, in order, one per window tried; on success every window was requested |
| Fetch.FetchWindowsOutcome | investpy/certificates.py:517-602 | the loop succeeds exactly when every window's step succeeds, and then returns the points of the windows that produced data, in window order |
| Fetch.FetchFailsAtLastSent | investpy/certificates.py:544-602 | a failed run ends with the failing window: the last request sent is the one whose step gave the error |
| Fetch.FetchEarlierStepsSucceeded | investpy/certificates.py:517-602 | every window requested before the last one was fetched and decoded without error |
| Fetch.Flatten | investpy/certificates.py:607 | the first window's points come first, and a single window is returned as it is |
| Fetch.FlattenAppend | investpy/certificates.py:607 | concatenation works window by window |
| Fetch.Assemble | investpy/certificates.py:604-607 | fails iff no window produced data, and then with the nothing-fetched error (the source's IndexError or ValueError); JSON holds the name, the "historical" section and only the first window's points (`final[0]`); the table holds every window's points concatenated in window order |
| Fetch.JsonIsFirstPartOfTable | investpy/certificates.py:604-607 | the JSON points are a prefix of the table's points, and all of them when one window produced data |
| Fetch.HistoricalData | investpy/certificates.py:412-607 | invalid arguments fail before any request; a range that cannot be split into windows fails with `DateOutOfRange` and an unresolved certificate fails with its resolution error, both before any request; once both succeed the requests are exactly the window loop's, at least one is sent, and a failing window's error is the call's error, while a run in which every window was skipped fails with the nothing-fetched error; a request is sent only after validation, partition and resolution succeed, and the requests are the windows' requests in order; the call then succeeds exactly when every window's step succeeds and some window produced data, with every window requested and the output assembled from the produced windows' points in window order |
| Fetch.OrderReversesEachWindow | investpy/certificates.py:581-585 | ascending sends the same requests as descending and reverses each window's points separately |
| Fetch.SingleWindowOrdersReverse | investpy/certificates.py:581-607 | for a range within twenty years, the ascending table is the exact reverse of the descending one |
| Fetch.RecentPoints | investpy/certificates.py:294-326 | a status other than 200 is ERR#0015; an empty body is rejected; on an HTML body it fails exactly when decoding the table does, and otherwise gives the decoded table in the requested order |
| Fetch.RecentIsFinalWindow | investpy/certificates.py:295-326 | on an HTML body the recent view decodes and orders like a final historical window |
| Fetch.RecentData | investpy/certificates.py:219-342 | invalid arguments fail before any request; an unresolved certificate fails with its resolution error before any request, and a resolved one is always requested; at most one request, sent only after resolution, carrying id, header and interval and no window; the call succeeds exactly when that response decodes, and the output holds those points, as JSON with the certificate's name and the "recent" section when asked, otherwise as a table |
| Fetch.LookupMattersOnlyOnDisagreement | investpy/certificates.py:498-511 | running a fetcher with the corrected lookup changes its result only when the two resolutions disagree on its certificate |
| Scenarios.ExampleRequest | investpy/certificates.py:513-530 | the example's request carries id 123, header "EX1 Historical Data", the whole range and "Daily" |
| Scenarios.TwoRowsAscending | investpy/certificates.py:565-585 | two data rows on the last window, sent newest first, come back oldest first under `ascending` |
| Scenarios.OneYearAscending | investpy/certificates.py:455-607 | a one-year range sends exactly one request; the rows sent newest first come back oldest first under `ascending` |
| Scenarios.ServerErrorAborts | investpy/certificates.py:544-545 | status 500 (any status other than 200) on the only window fails with that status after one request |
| Scenarios.NoResultsOnOnlyWindow | investpy/certificates.py:557-561 | "No results found" on the only window fails with ERR#0102 |

## Left out

- HTTP: the POST itself, the random `smlID`, User-Agent rotation and the fixed form
  fields. A call's network effect is the list of requests it sends to `provider`.
- HTML parsing with lxml and XPath. A response body is empty text or the already
  extracted `curr_table` rows. Each cell has its text and its `data-real-value`.
- Loading `certificates.csv` and its errors (ERR#0096, ERR#0097). The catalog is a
  value, and `get_certificate_countries` is its `countries` field.
- `isinstance` checks (ERR#0025, ERR#0002, and the type branches of ERR#0100, ERR#0006,
  ERR#0017, ERR#0073). Dafny's types rule those inputs out.
- `datetime.strptime` on dd/mm/yyyy. A date arrives as `Option<Date>`, with None when
  it does not parse. The `mm/dd/yyyy` text sent to the provider is the `Window` itself.
- `float(...)` and `datetime.fromtimestamp`. They are floating point and
  timezone-dependent. Decoder.DecodeRow: prices stay comma-stripped strings and the
  timestamp stays the raw text, so a non-numeric value that `float` or `int` would
  reject is accepted.
- pandas DataFrame construction, `set_index`, `reset_index`, `pd.concat` and
  `json.dumps`. A table is its sequence of points, and a JSON document is its name,
  section and points.
- Certificates.Search: the value is matched as a literal substring. pandas
  `str.contains` reads it as a regular expression, and empty (NaN) cells are not
  modelled.
- Certificates.Search: case is ignored with the Latin-1 `Text.Lower`. pandas uses
  `re.IGNORECASE`, which also pairs letters beyond Latin-1 and ÿ with Ÿ.
- Certificates.ResolveAsWritten and Certificates.Resolve: lower-casing is modelled for
  ASCII and Latin-1 capitals only. Python's `str.lower` covers all of Unicode, for
  example Ÿ and ẞ.
- Certificates.ResolveAsWritten and Certificates.Resolve: `unidecode` is modelled for
  the Latin-1 letters U+00C0..U+00FF only. It also transliterates other characters,
  such as ª, º, µ, × and ÷ and everything beyond Latin-1. The model keeps them.
- Text.Fold: the same limit; only the letters U+00C0..U+00FF are folded.
- Text.Strip: blanks are ASCII whitespace, U+001C..U+001F, U+0085 and U+00A0. Other
  Unicode spaces are kept.
- `get_certificate_information` and `get_certificates_overview`: both return None.
- `get_certificates`, `get_certificates_list`, `get_certificates_dict` and
  `get_certificate_countries`: these are catalog listings. `certificates_data` is not
  part of this model.
- `investpy/news.py`, `investpy/holidays.py` and the live-network tests in
  `tests/`: outside the certificate core.

## Findings

| source | as written | input that shows it | evidently intended | confidence | as-written member | corrected member |
|---|---|---|---|---|---|---|
| investpy/certificates.py:506-511 | membership is tested on `unidecode` of the lower-cased names, but the row is picked with `idxmax` over `name.str.lower() == certificate`, without `unidecode`; when that comparison is false for every row, `idxmax` returns the country's first row | catalog rows "a" (symbol A1) and "é" (symbol E1) in country "fr", certificate "e" | the first exact lower-case match when there is one, otherwise the first row of the country whose folded name equals the folded input, here "é" | high; not executed | Certificates.ResolveAsWritten (shown by Certificates.AccentOnlyMatchPicksFirstRow) | Certificates.Resolve (proved by Certificates.UniqueFoldedNameResolves) |

=== FILE: certificates.dfy ===
/** The bundled certificate catalog: resolving a (name, country) pair to the provider's
    id and symbol, and `search_certificates`. Loading the CSV file is not modelled: the
    catalog arrives as a value. */
module Certificates {
  import opened Errors
  import opened Text

  /** The public columns of one catalog row. */
  datatype Listing = Listing(
    country: string, name: string, fullName: string, symbol: string,
    issuer: string, isin: string, assetClass: string, underlying: string)

  /** A catalog row: its public columns and the provider's internal `id` and `tag`. */
  datatype Certificate = Certificate(info: Listing, id: int, tag: string)

  /** The rows of `certificates.csv` and the country list of `certificate_countries`. */
  datatype Catalog = Catalog(rows: seq<Certificate>, countries: seq<string>)

  /** The columns of the catalog file, in file order. */
  const Columns: seq<string> :=
    ["country", "name", "full_name", "symbol", "issuer", "isin", "asset_class", "underlying", "id", "tag"]

  /** The columns `search_certificates` accepts: the file's columns after `id` and `tag`
      are dropped. */
  const SearchFields: seq<string> :=
    ["country", "name", "full_name", "symbol", "issuer", "isin", "asset_class", "underlying"]

  /** The search fields are exactly the file's columns other than `id` and `tag`, in file
      order. */
  lemma SearchFieldsAreUnhiddenColumns()
    ensures forall c :: c in SearchFields <==> c in Columns && c != "id" && c != "tag"
    ensures SearchFields == Columns[..|SearchFields|]
  {
  }

  // ---------------------------------------------------------------------------
  // Name resolution

  /** What the fetchers take from the resolved row. */
  datatype Resolved = Resolved(symbol: string, id: int, name: string)

  function ResolvedFrom(c: Certificate): Resolved {
    Resolved(c.info.symbol, c.id, c.info.name)
  }

  /** A country as the catalog spells it: lower-cased, accents folded. */
  function CountryKey(country: string): string {
    Fold(Lower(country))
  }

  /** A name compared accent-insensitively: lower-cased, accents folded. */
  function NameKey(name: string): string {
    Fold(Lower(name))
  }

  /** The caller's certificate name as the source normalises it: stripped, lower-cased. */
  function InputName(certificate: string): string {
    Lower(Strip(certificate))
  }

  /** How a row's name is compared while resolving. */
  datatype Probe =
    | AnyName                   // every row of the country
    | LowerName(lower: string)  // `name.str.lower() == certificate`
    | FoldedName(key: string)   // `unidecode(name.lower()) == unidecode(certificate)`

  predicate Hit(c: Certificate, countryKey: string, p: Probe) {
    && c.info.country == countryKey
    && match p
       case AnyName => true
       case LowerName(s) => Lower(c.info.name) == s
       case FoldedName(s) => NameKey(c.info.name) == s
  }

  predicate IsFirstHit(rows: seq<Certificate>, countryKey: string, p: Probe, i: int) {
    0 <= i < |rows| && Hit(rows[i], countryKey, p) && forall j :: 0 <= j < i ==> !Hit(rows[j], countryKey, p)
  }

  /** Index of the first row of the country that the probe accepts. */
  function FirstHit(rows: seq<Certificate>, countryKey: string, p: Probe): (r: Option<nat>)
    ensures r.Some? ==> IsFirstHit(rows, countryKey, p, r.value)
    ensures r.None? ==> forall j :: 0 <= j < |rows| ==> !Hit(rows[j], countryKey, p)
  {
    if rows == [] then None
    else if Hit(rows[0], countryKey, p) then Some(0)
    else match FirstHit(rows[1..], countryKey, p)
      case None => None
      case Some(i) => Some(i + 1)
  }

  /** Resolution as the source writes it: membership is tested on accent-folded names,
      but the row is then picked with `idxmax` over an exact lower-case comparison; when
      that comparison is false for every row, `idxmax` returns the country's first row. */
  function ResolveAsWritten(cat: Catalog, certificate: string, country: string): (r: Result<Resolved>)
    ensures CountryKey(country) !in cat.countries ==> r == Failure(CountryNotFound)
    ensures CountryKey(country) in cat.countries ==>
              (r.Success? <==> exists i :: 0 <= i < |cat.rows|
                                 && Hit(cat.rows[i], CountryKey(country), FoldedName(Fold(InputName(certificate)))))
    ensures r.Failure? ==> r.error == CountryNotFound || r.error == CertificateNotFound
    ensures r.Success? && (exists i :: 0 <= i < |cat.rows| && Hit(cat.rows[i], CountryKey(country), LowerName(InputName(certificate))))
            ==> exists i :: IsFirstHit(cat.rows, CountryKey(country), LowerName(InputName(certificate)), i)
                            && r.value == ResolvedFrom(cat.rows[i])
    ensures r.Success? && (forall i :: 0 <= i < |cat.rows| ==> !Hit(cat.rows[i], CountryKey(country), LowerName(InputName(certificate))))
            ==> exists i :: IsFirstHit(cat.rows, CountryKey(country), AnyName, i) && r.value == ResolvedFrom(cat.rows[i])
  {
    var key := CountryKey(country);
    var target := InputName(certificate);
    if key !in cat.countries then Failure(CountryNotFound)
    else match FirstHit(cat.rows, key, FoldedName(Fold(target)))
      case None => Failure(CertificateNotFound)
      case Some(m) =>
        assert Hit(cat.rows[m], key, AnyName);
        match FirstHit(cat.rows, key, LowerName(target))
        case Some(i) => Success(ResolvedFrom(cat.rows[i]))
        case None => Success(ResolvedFrom(cat.rows[FirstHit(cat.rows, key, AnyName).value]))
  }

  /** Resolution as evidently intended: the certificate exists when some row of the
      country has the input's accent-folded name, as in the source; the row picked is
      the first exact lower-case match, as in the source, and otherwise the first row
      whose folded name matched, never an unrelated row. */
  function Resolve(cat: Catalog, certificate: string, country: string): (r: Result<Resolved>)
    ensures CountryKey(country) !in cat.countries ==> r == Failure(CountryNotFound)
    ensures CountryKey(country) in cat.countries ==>
              (r.Success? <==> exists i :: 0 <= i < |cat.rows|
                                 && Hit(cat.rows[i], CountryKey(country), FoldedName(Fold(InputName(certificate)))))
    ensures r.Failure? ==> r.error == CountryNotFound || r.error == CertificateNotFound
    ensures r.Success? ==> exists i :: 0 <= i < |cat.rows|
                                       && Hit(cat.rows[i], CountryKey(country), FoldedName(Fold(InputName(certificate))))
                                       && r.value == ResolvedFrom(cat.rows[i])
    ensures r.Success? && (exists i :: 0 <= i < |cat.rows| && Hit(cat.rows[i], CountryKey(country), LowerName(InputName(certificate))))
            ==> exists i :: IsFirstHit(cat.rows, CountryKey(country), LowerName(InputName(certificate)), i)
                            && r.value == ResolvedFrom(cat.rows[i])
    ensures r.Success? && (forall i :: 0 <= i < |cat.rows| ==> !Hit(cat.rows[i], CountryKey(country), LowerName(InputName(certificate))))
            ==> exists i :: IsFirstHit(cat.rows, CountryKey(country), FoldedName(Fold(InputName(certificate))), i)
                            && r.value == ResolvedFrom(cat.rows[i])
  {
    var key := CountryKey(country);
    var target := InputName(certificate);
    if key !in cat.countries then Failure(CountryNotFound)
    else match FirstHit(cat.rows, key, FoldedName(Fold(target)))
      case None => Failure(CertificateNotFound)
      case Some(m) =>
        match FirstHit(cat.rows, key, LowerName(target))
        case Some(i) =>
          assert Hit(cat.rows[i], key, FoldedName(Fold(target)));
          Success(ResolvedFrom(cat.rows[i]))
        case None => Success(ResolvedFrom(cat.rows[m]))
  }

  /** The two resolutions differ only where the source falls back on `idxmax` over an
      all-False comparison: the certificate exists, but no name of the country equals
      the lower-cased input exactly. */
  lemma ResolveDiffersOnlyOnFallback(cat: Catalog, certificate: string, country: string)
    ensures ResolveAsWritten(cat, certificate, country) != Resolve(cat, certificate, country) ==>
              && Resolve(cat, certificate, country).Success?
              && ResolveAsWritten(cat, certificate, country).Success?
              && forall i :: 0 <= i < |cat.rows| ==> !Hit(cat.rows[i], CountryKey(country), LowerName(InputName(certificate)))
  {
  }

  /** A row can be the first accepted one in one way only. */
  lemma FirstHitUnique(rows: seq<Certificate>, countryKey: string, p: Probe, i: int)
    requires IsFirstHit(rows, countryKey, p, i)
    ensures FirstHit(rows, countryKey, p) == Some(i)
  {
  }

  /** When some name of the country equals the lower-cased input exactly, both
      resolutions return the first such row. */
  lemma ExactMatchResolves(cat: Catalog, certificate: string, country: string, i: int)
    requires CountryKey(country) in cat.countries
    requires IsFirstHit(cat.rows, CountryKey(country), LowerName(InputName(certificate)), i)
    ensures ResolveAsWritten(cat, certificate, country) == Success(ResolvedFrom(cat.rows[i]))
    ensures Resolve(cat, certificate, country) == Success(ResolvedFrom(cat.rows[i]))
  {
    var key := CountryKey(country);
    var target := InputName(certificate);
    FirstHitUnique(cat.rows, key, LowerName(target), i);
    assert Hit(cat.rows[i], key, FoldedName(Fold(target)));
    assert FirstHit(cat.rows, key, FoldedName(Fold(target))).Some?;
  }

  /** When exactly one row of the country has the input's accent-folded name, every
      spelling that folds to that name resolves to that row. */
  lemma UniqueFoldedNameResolves(cat: Catalog, c1: string, c2: string, country: string, i: int)
    requires CountryKey(country) in cat.countries
    requires Fold(InputName(c1)) == Fold(InputName(c2))
    requires 0 <= i < |cat.rows| && Hit(cat.rows[i], CountryKey(country), FoldedName(Fold(InputName(c1))))
    requires forall j :: 0 <= j < |cat.rows| && j != i ==> !Hit(cat.rows[j], CountryKey(country), FoldedName(Fold(InputName(c1))))
    ensures Resolve(cat, c1, country) == Success(ResolvedFrom(cat.rows[i]))
    ensures Resolve(cat, c2, country) == Success(ResolvedFrom(cat.rows[i]))
  {
  }

  /** Whether a certificate is found ignores case, surrounding blanks and accents, and
      inputs equal after stripping and lower-casing resolve to the same row. */
  lemma ResolveIgnoresSpelling(cat: Catalog, c1: string, n1: string, c2: string, n2: string)
    requires CountryKey(n1) == CountryKey(n2)
    requires Fold(InputName(c1)) == Fold(InputName(c2))
    ensures Resolve(cat, c1, n1).Success? <==> Resolve(cat, c2, n2).Success?
    ensures InputName(c1) == InputName(c2) ==> Resolve(cat, c1, n1) == Resolve(cat, c2, n2)
  {
    var key := CountryKey(n1);
    var folded := FirstHit(cat.rows, key, FoldedName(Fold(InputName(c1))));
    assert folded == FirstHit(cat.rows, key, FoldedName(Fold(InputName(c2))));
    if key in cat.countries {
      assert Resolve(cat, c1, n1).Success? <==> folded.Some?;
      assert Resolve(cat, c2, n2).Success? <==> folded.Some?;
    }
  }

  /** Which name resolution a fetcher runs: the source's, or the corrected one. */
  datatype Lookup = AsWritten | Corrected

  function Find(cat: Catalog, lookup: Lookup, certificate: string, country: string): Result<Resolved> {
    match lookup
    case AsWritten => ResolveAsWritten(cat, certificate, country)
    case Corrected => Resolve(cat, certificate, country)
  }

  /** Where no name of the country carries an accent and the input carries none, the
      folded and the exact lower-case comparisons pick the same row. */
  lemma {:induction false} FirstHitPlainNames(rows: seq<Certificate>, key: string, target: string)
    requires forall j :: 0 <= j < |rows| && rows[j].info.country == key ==> NameKey(rows[j].info.name) == Lower(rows[j].info.name)
    ensures FirstHit(rows, key, FoldedName(target)) == FirstHit(rows, key, LowerName(target))
  {
    if rows != [] {
      FirstHitPlainNames(rows[1..], key, target);
    }
  }

  /** On plain names the source's resolution is right: it agrees with `Resolve`. */
  lemma ResolveAsWrittenOnPlainNames(cat: Catalog, certificate: string, country: string)
    requires Fold(InputName(certificate)) == InputName(certificate)
    requires forall j :: 0 <= j < |cat.rows| && cat.rows[j].info.country == CountryKey(country)
               ==> NameKey(cat.rows[j].info.name) == Lower(cat.rows[j].info.name)
    ensures ResolveAsWritten(cat, certificate, country) == Resolve(cat, certificate, country)
  {
    FirstHitPlainNames(cat.rows, CountryKey(country), InputName(certificate));
  }

  lemma PlainKeys()
    ensures CountryKey("fr") == "fr" && InputName("e") == "e" && Fold("e") == "e"
    ensures NameKey("a") == "a" && Lower("a") == "a"
  {
    AsciiLowerFixed("fr");
    AsciiLowerFixed("e");
    AsciiLowerFixed("a");
    TrimStartFixed("e");
    TrimEndFixed("e");
  }

  lemma AccentedKey()
    ensures Lower("\U{E9}") == "\U{E9}" && NameKey("\U{E9}") == "e"
  {
    assert Lower("\U{E9}") == "\U{E9}";
    assert Fold("\U{E9}") == "e";
  }

  /** The discrepancy: in a country with the certificates "a" (symbol A1) and "\U{E9}"
      (symbol E1), asking for "e" passes the accent-folded membership test thanks to
      the second row, yet the source returns the unrelated first row "a". */
  lemma AccentOnlyMatchPicksFirstRow()
    ensures var a := Certificate(Listing("fr", "a", "", "A1", "", "", "", ""), 1, "");
            var e := Certificate(Listing("fr", "\U{E9}", "", "E1", "", "", "", ""), 2, "");
            var cat := Catalog([a, e], ["fr"]);
            && ResolveAsWritten(cat, "e", "fr") == Success(Resolved("A1", 1, "a"))
            && Resolve(cat, "e", "fr") == Success(Resolved("E1", 2, "\U{E9}"))
  {
    var a := Certificate(Listing("fr", "a", "", "A1", "", "", "", ""), 1, "");
    var e := Certificate(Listing("fr", "\U{E9}", "", "E1", "", "", "", ""), 2, "");
    var cat := Catalog([a, e], ["fr"]);
    PlainKeys();
    AccentedKey();
    assert !Hit(a, "fr", FoldedName("e")) && Hit(e, "fr", FoldedName("e"));
    assert !Hit(a, "fr", LowerName("e")) && !Hit(e, "fr", LowerName("e"));
    assert cat.rows[1..] == [e] && cat.rows[1..][1..] == [];
    assert FirstHit(cat.rows, "fr", FoldedName("e")) == Some(1);
    assert FirstHit(cat.rows, "fr", LowerName("e")) == None;
    assert FirstHit(cat.rows, "fr", AnyName) == Some(0);
  }

  // ---------------------------------------------------------------------------
  // Search

  /** A search field, by its column name. */
  datatype Field = Country | Name | FullName | Symbol | Issuer | Isin | AssetClass | Underlying

  function FieldName(f: Field): string {
    match f
    case Country => "country"
    case Name => "name"
    case FullName => "full_name"
    case Symbol => "symbol"
    case Issuer => "issuer"
    case Isin => "isin"
    case AssetClass => "asset_class"
    case Underlying => "underlying"
  }

  /** The search field a column name denotes, if any. */
  function ParseField(name: string): (r: Option<Field>)
    ensures r.Some? <==> name in SearchFields
    ensures r.Some? ==> FieldName(r.value) == name
  {
    if name == "country" then Some(Country)
    else if name == "name" then Some(Name)
    else if name == "full_name" then Some(FullName)
    else if name == "symbol" then Some(Symbol)
    else if name == "issuer" then Some(Issuer)
    else if name == "isin" then Some(Isin)
    else if name == "asset_class" then Some(AssetClass)
    else if name == "underlying" then Some(Underlying)
    else None
  }

  /** A listing's value in a search field. */
  function FieldValue(l: Listing, f: Field): string {
    match f
    case Country => l.country
    case Name => l.name
    case FullName => l.fullName
    case Symbol => l.symbol
    case Issuer => l.issuer
    case Isin => l.isin
    case AssetClass => l.assetClass
    case Underlying => l.underlying
  }

  /** The public columns of every row, in catalog order. */
  function Infos(rows: seq<Certificate>): (r: seq<Listing>)
    ensures |r| == |rows| && forall i :: 0 <= i < |rows| ==> r[i] == rows[i].info
  {
    if rows == [] then [] else [rows[0].info] + Infos(rows[1..])
  }

  predicate SearchHit(l: Listing, f: Field, value: string) {
    ContainsIgnoringCase(FieldValue(l, f), value)
  }

  /** The public columns of the rows whose `field` value contains `value`, in catalog
      order; never more than the catalog. */
  function Matching(rows: seq<Certificate>, field: Field, value: string): (r: seq<Listing>)
    ensures |r| <= |rows|
  {
    if rows == [] then []
    else if SearchHit(rows[0].info, field, value) then [rows[0].info] + Matching(rows[1..], field, value)
    else Matching(rows[1..], field, value)
  }

  /** Every kept listing matches. */
  lemma {:induction false} MatchingSound(rows: seq<Certificate>, field: Field, value: string)
    ensures forall k :: 0 <= k < |Matching(rows, field, value)| ==>
              SearchHit(Matching(rows, field, value)[k], field, value)
  {
    if rows != [] {
      MatchingSound(rows[1..], field, value);
      var rest := Matching(rows[1..], field, value);
      if SearchHit(rows[0].info, field, value) {
        var r := [rows[0].info] + rest;
        assert Matching(rows, field, value) == r;
        forall k | 0 <= k < |r|
          ensures SearchHit(r[k], field, value)
        {
          if k > 0 {
            assert r[k] == rest[k - 1];
          }
        }
      }
    }
  }

  /** When every row matches, every row's listing is kept. */
  lemma {:induction false} MatchingKeepsAll(rows: seq<Certificate>, field: Field, value: string)
    requires forall i :: 0 <= i < |rows| ==> SearchHit(rows[i].info, field, value)
    ensures Matching(rows, field, value) == Infos(rows)
  {
    if rows != [] {
      assert SearchHit(rows[0].info, field, value);
      MatchingKeepsAll(rows[1..], field, value);
    }
  }

  /** Every matching row is kept. */
  lemma {:induction false} MatchingComplete(rows: seq<Certificate>, field: Field, value: string, i: nat)
    requires i < |rows| && SearchHit(rows[i].info, field, value)
    ensures rows[i].info in Matching(rows, field, value)
  {
    if i > 0 {
      assert rows[i] == rows[1..][i - 1];
      MatchingComplete(rows[1..], field, value, i - 1);
    }
  }

  /** Something is kept exactly when some row matches. */
  lemma MatchingNonEmpty(rows: seq<Certificate>, field: Field, value: string)
    ensures Matching(rows, field, value) != [] <==>
              exists i :: 0 <= i < |rows| && SearchHit(rows[i].info, field, value)
  {
    var r := Matching(rows, field, value);
    if r != [] {
      MatchingSound(rows, field, value);
      assert SearchHit(r[0], field, value);
      MatchingFrom(rows, field, value, r[0]);
    }
    if exists i :: 0 <= i < |rows| && SearchHit(rows[i].info, field, value) {
      var i :| 0 <= i < |rows| && SearchHit(rows[i].info, field, value);
      MatchingComplete(rows, field, value, i);
    }
  }

  /** Every kept listing comes from some row. */
  lemma {:induction false} MatchingFrom(rows: seq<Certificate>, field: Field, value: string, l: Listing)
    requires l in Matching(rows, field, value) && SearchHit(l, field, value)
    ensures exists i :: 0 <= i < |rows| && rows[i].info == l && SearchHit(rows[i].info, field, value)
  {
    if rows[0].info == l {
    } else {
      MatchingFrom(rows[1..], field, value, l);
      var j :| 0 <= j < |rows[1..]| && rows[1..][j].info == l && SearchHit(rows[1..][j].info, field, value);
      assert rows[j + 1] == rows[1..][j];
    }
  }

  /** Matching works row by row, so the result keeps the catalog's relative order. */
  lemma {:induction false} MatchingAppend(a: seq<Certificate>, b: seq<Certificate>, field: Field, value: string)
    ensures Matching(a + b, field, value) == Matching(a, field, value) + Matching(b, field, value)
  {
    if a == [] {
      assert a + b == b;
    } else {
      assert (a + b)[0] == a[0];
      assert (a + b)[1..] == a[1..] + b;
      MatchingAppend(a[1..], b, field, value);
      if SearchHit(a[0].info, field, value) {
        var x := [a[0].info];
        var m := Matching(a[1..], field, value);
        var n := Matching(b, field, value);
        assert Matching(a + b, field, value) == x + (m + n);
        assert x + (m + n) == (x + m) + n;
      }
    }
  }

  /** `search_certificates`: the field must be one of the public columns and the value
      non-empty; the result is every matching row, and no match at all is an error. */
  function Search(cat: Catalog, field: string, value: string): (r: Result<seq<Listing>>)
    ensures field == [] ==> r == Failure(InvalidArgument(6))
    ensures field != [] && field !in SearchFields ==> r == Failure(InvalidArgument(26))
    ensures field in SearchFields && value == [] ==> r == Failure(InvalidArgument(17))
    ensures ParseField(field).Some? && value != [] ==>
              var f := ParseField(field).value;
              && (r.Success? <==> exists i :: 0 <= i < |cat.rows| && SearchHit(cat.rows[i].info, f, value))
              && (r.Failure? ==> r.error == NoSearchResults)
              && (r.Success? ==> r.value == Matching(cat.rows, f, value))
    ensures r.Success? ==> field in SearchFields && value != [] && |r.value| > 0
  {
    if field == [] then Failure(InvalidArgument(6))
    else if ParseField(field).None? then Failure(InvalidArgument(26))
    else if value == [] then Failure(InvalidArgument(17))
    else
      var f := ParseField(field).value;
      var found := Matching(cat.rows, f, value);
      MatchingNonEmpty(cat.rows, f, value);
      if |found| == 0 then Failure(NoSearchResults) else Success(found)
  }
}

=== FILE: dates.dfy ===
/** Calendar dates as Python's `datetime` sees them after `strptime(..., '%d/%m/%Y')`:
    midnight of a proleptic Gregorian day in years 1..9999. */
module Dates {
  import opened Errors

  datatype Date = Date(year: int, month: int, day: int)

  predicate IsLeapYear(y: int) {
    y % 4 == 0 && (y % 100 != 0 || y % 400 == 0)
  }

  function DaysInMonth(y: int, m: int): int
    requires 1 <= m <= 12
  {
    if m == 2 then (if IsLeapYear(y) then 29 else 28)
    else if m == 4 || m == 6 || m == 9 || m == 11 then 30
    else 31
  }

  predicate Valid(d: Date) {
    1 <= d.year <= 9999 && 1 <= d.month <= 12 && 1 <= d.day <= DaysInMonth(d.year, d.month)
  }

  /** Strict chronological order: lexicographic on (year, month, day). */
  predicate Before(a: Date, b: Date) {
    a.year < b.year
    || (a.year == b.year && a.month < b.month)
    || (a.year == b.year && a.month == b.month && a.day < b.day)
  }

  predicate NotAfter(a: Date, b: Date) {
    !Before(b, a)
  }

  lemma NotAfterTransitive(a: Date, b: Date, c: Date)
    requires NotAfter(a, b) && NotAfter(b, c)
    ensures NotAfter(a, c)
  {
  }

  predicate IsLeapDay(d: Date) {
    d.month == 2 && d.day == 29
  }

  /** `d.replace(year=y)`: the same month and day in year `y`, which fails with a
      ValueError when the year is out of range or `d` is Feb 29 and `y` is a common year. */
  function ReplaceYear(d: Date, y: int): (r: Result<Date>)
    requires Valid(d)
    ensures r.Success? <==> 1 <= y <= 9999 && (!IsLeapDay(d) || IsLeapYear(y))
    ensures r.Failure? ==> r.error == DateOutOfRange
    ensures r.Success? ==> Valid(r.value) && r.value.year == y
                           && r.value.month == d.month && r.value.day == d.day
  {
    if 1 <= y <= 9999 && d.day <= DaysInMonth(y, d.month) then Success(Date(y, d.month, d.day))
    else Failure(DateOutOfRange)
  }
}

=== FILE: decoder.dfy ===
/** Decoding the provider's results table: the rows of `curr_table`, already extracted
    from the HTML, become price points; the "No results found" row is handled as the
    historical and the recent fetchers each handle it. */
module Decoder {
  import opened Errors
  import opened Text
  import opened Validation

  /** Text of the single cell the provider sends when a window holds no data. */
  const NoResults := "No results found"

  /** One `td` of a table row: its text content and its `data-real-value` attribute,
      None when the attribute is absent. */
  datatype Cell = Cell(text: string, realValue: Option<string>)

  type Row = seq<Cell>

  /** One decoded row. `timestamp` is the raw Unix-time text of the first cell; the prices
      are the provider's numeric strings with thousands separators removed. */
  datatype PricePoint = PricePoint(timestamp: string, open: string, high: string, low: string, close: string)

  predicate IsSentinel(row: Row) {
    |row| > 0 && row[0].text == NoResults
  }

  /** A data row carries at least the five cells date, close, open, high, low, each with a value. */
  predicate WellFormed(row: Row) {
    |row| >= 5 && forall k :: 0 <= k < 5 ==> row[k].realValue.Some?
  }

  /** No price of the point holds a thousands separator. */
  predicate CommaFree(p: PricePoint) {
    ',' !in p.open && ',' !in p.high && ',' !in p.low && ',' !in p.close
  }

  /** Reads one data row: cell 0 is the timestamp, cells 1..4 are close, open, high and
      low. A missing cell or attribute raises in the source. */
  function DecodeRow(row: Row): (r: Result<PricePoint>)
    ensures r.Success? <==> WellFormed(row)
    ensures r.Failure? ==> r.error == MalformedRow
    ensures r.Success? ==> CommaFree(r.value)
  {
    if !WellFormed(row) then Failure(MalformedRow)
    else Success(PricePoint(
      row[0].realValue.value,
      RemoveCommas(row[2].realValue.value),
      RemoveCommas(row[3].realValue.value),
      RemoveCommas(row[4].realValue.value),
      RemoveCommas(row[1].realValue.value)))
  }

  /** The provider's column order: close is cell 1, open cell 2, high cell 3, low cell 4. */
  lemma DecodeRowColumns(row: Row)
    requires WellFormed(row)
    ensures var p := DecodeRow(row).value;
            && p.timestamp == row[0].realValue.value
            && p.close == RemoveCommas(row[1].realValue.value)
            && p.open == RemoveCommas(row[2].realValue.value)
            && p.high == RemoveCommas(row[3].realValue.value)
            && p.low == RemoveCommas(row[4].realValue.value)
  {
  }

  /** A price point laid out as the provider's row: date, close, open, high, low. */
  function EncodeRow(p: PricePoint): Row {
    [Cell("", Some(p.timestamp)), Cell(p.close, Some(p.close)), Cell(p.open, Some(p.open)),
     Cell(p.high, Some(p.high)), Cell(p.low, Some(p.low))]
  }

  /** Decoding the provider's layout of a point gives the point back. */
  lemma DecodeEncodeRow(p: PricePoint)
    requires CommaFree(p)
    ensures DecodeRow(EncodeRow(p)) == Success(p)
  {
    RemoveCommasFixed(p.open);
    RemoveCommasFixed(p.high);
    RemoveCommasFixed(p.low);
    RemoveCommasFixed(p.close);
  }

  // ---------------------------------------------------------------------------
  // Ordering

  function Reverse<T>(s: seq<T>): (r: seq<T>)
    ensures |r| == |s|
    ensures forall i :: 0 <= i < |s| ==> r[i] == s[|s| - 1 - i]
  {
    if s == [] then [] else Reverse(s[1..]) + [s[0]]
  }

  lemma ReverseReverse<T>(s: seq<T>)
    ensures Reverse(Reverse(s)) == s
  {
  }

  /** Rows arrive newest first; `ascending` reverses them and `descending` keeps them. */
  function Arrange(order: Order, points: seq<PricePoint>): (r: seq<PricePoint>)
    ensures |r| == |points|
    ensures forall i :: 0 <= i < |points| ==> r[i] == (if order.Ascending? then points[|points| - 1 - i] else points[i])
  {
    match order
    case Ascending => Reverse(points)
    case Descending => points
  }

  /** The two orders of one window are exact reverses of each other, and `descending`
      is the provider's own order. */
  lemma ArrangeOpposite(points: seq<PricePoint>)
    ensures Arrange(Descending, points) == points
    ensures Arrange(Ascending, points) == Reverse(Arrange(Descending, points))
    ensures Arrange(Descending, points) == Reverse(Arrange(Ascending, points))
  {
    ReverseReverse(points);
  }

  // ---------------------------------------------------------------------------
  // Historical windows

  /** The rows the historical loop decodes: all but the "No results found" rows, in
      the provider's order. */
  function DataRows(rows: seq<Row>): seq<Row> {
    if rows == [] then [] else (if IsSentinel(rows[0]) then [] else [rows[0]]) + DataRows(rows[1..])
  }

  /** `points` are the decoded `rows`, one per row, in the same order. */
  predicate DecodesTo(rows: seq<Row>, points: seq<PricePoint>) {
    |points| == |rows| && forall i :: 0 <= i < |rows| ==> DecodeRow(rows[i]) == Success(points[i])
  }

  lemma DecodesToAppend(a: seq<Row>, pa: seq<PricePoint>, b: seq<Row>, pb: seq<PricePoint>)
    requires DecodesTo(a, pa) && DecodesTo(b, pb)
    ensures DecodesTo(a + b, pa + pb)
  {
    forall i | 0 <= i < |a + b|
      ensures DecodeRow((a + b)[i]) == Success((pa + pb)[i])
    {
      if i < |a| {
        assert (a + b)[i] == a[i] && (pa + pb)[i] == pa[i];
      } else {
        assert (a + b)[i] == b[i - |a|] && (pa + pb)[i] == pb[i - |a|];
      }
    }
  }

  /** What one window adds to the result: nothing, or its decoded rows. */
  datatype Yield = Skipped | Produced(points: seq<PricePoint>)

  predicate NoSentinel(rows: seq<Row>) {
    forall i :: 0 <= i < |rows| ==> !IsSentinel(rows[i])
  }

  /** What one row contributes: nothing for "No results found", else its decoded point. */
  function RowPoints(row: Row): (r: Result<seq<PricePoint>>)
    ensures r.Success? <==> IsSentinel(row) || WellFormed(row)
    ensures r.Failure? ==> r.error == MalformedRow
    ensures r.Success? ==> DecodesTo(if IsSentinel(row) then [] else [row], r.value)
  {
    if IsSentinel(row) then Success([])
    else match DecodeRow(row)
      case Success(p) => Success([p])
      case Failure(e) => Failure(e)
  }

  /** A row the row loop gets past: it has a first cell, and it is either "No results
      found" on a window other than the last, or a well-formed data row. */
  predicate Decodable(row: Row, isLast: bool) {
    row != [] && (if IsSentinel(row) then !isLast else WellFormed(row))
  }

  predicate AllDecodable(rows: seq<Row>, isLast: bool) {
    forall i :: 0 <= i < |rows| ==> Decodable(rows[i], isLast)
  }

  lemma AllDecodableCons(rows: seq<Row>, isLast: bool)
    requires rows != []
    ensures AllDecodable(rows, isLast) <==> Decodable(rows[0], isLast) && AllDecodable(rows[1..], isLast)
  {
    if Decodable(rows[0], isLast) && AllDecodable(rows[1..], isLast) {
      forall i | 0 < i < |rows|
        ensures Decodable(rows[i], isLast)
      {
        assert rows[i] == rows[1..][i - 1];
      }
    }
  }

  /** The historical fetcher's row loop over one non-empty window. Each row sets the data
      flag: a "No results found" row clears it (and is fatal on the last window), any
      other row sets it and is decoded. The result pairs the decoded points with the
      flag the loop leaves behind. */
  function ScanRows(rows: seq<Row>, isLast: bool): (r: Result<(seq<PricePoint>, bool)>)
    requires rows != []
    ensures r.Success? ==> r.value.1 == !IsSentinel(rows[|rows| - 1])
    ensures r.Success? ==> |r.value.0| <= |rows| && DecodesTo(DataRows(rows), r.value.0)
    ensures r.Success? && r.value.1 ==> |r.value.0| > 0
    ensures r.Success? && isLast ==> NoSentinel(rows)
    ensures r.Success? <==> AllDecodable(rows, isLast)
    ensures r.Failure? ==> r.error == MalformedRow || (isLast && r.error == DataUnavailable)
  {
    AllDecodableCons(rows, isLast);
    var row := rows[0];
    if row == [] then Failure(MalformedRow)
    else if IsSentinel(row) && isLast then Failure(DataUnavailable)
    else match RowPoints(row)
      case Failure(e) => Failure(e)
      case Success(head) =>
        if |rows| == 1 then
          assert DataRows(rows) == (if IsSentinel(row) then [] else [row]) + [];
          Success((head, !IsSentinel(row)))
        else match ScanRows(rows[1..], isLast)
          case Failure(e) => Failure(e)
          case Success(rest) =>
            ScanCons(rows, head, rest.0);
            NoSentinelCons(rows);
            Success((head + rest.0, rest.1))
  }

  /** The points of a window are its first row's followed by the rest's. */
  lemma ScanCons(rows: seq<Row>, head: seq<PricePoint>, rest: seq<PricePoint>)
    requires |rows| > 1 && RowPoints(rows[0]) == Success(head)
    requires |rest| <= |rows| - 1 && DecodesTo(DataRows(rows[1..]), rest)
    ensures |head + rest| <= |rows| && DecodesTo(DataRows(rows), head + rest)
  {
    var first := if IsSentinel(rows[0]) then [] else [rows[0]];
    assert DataRows(rows) == first + DataRows(rows[1..]);
    DecodesToAppend(first, head, DataRows(rows[1..]), rest);
  }

  lemma NoSentinelCons(rows: seq<Row>)
    requires rows != []
    ensures !IsSentinel(rows[0]) && NoSentinel(rows[1..]) ==> NoSentinel(rows)
  {
    if !IsSentinel(rows[0]) && NoSentinel(rows[1..]) {
      forall i | 0 < i < |rows|
        ensures !IsSentinel(rows[i])
      {
        assert rows[i] == rows[1..][i - 1];
      }
    }
  }

  /** One historical window's rows. An empty table is a scraping error; otherwise the
      window contributes its rows exactly when its last row is a data row. */
  function DecodeWindow(rows: seq<Row>, isLast: bool): (r: Result<Yield>)
    ensures rows == [] ==> r == Failure(ScrapingFailed)
    ensures r.Success? ==> (r.value.Skipped? <==> IsSentinel(rows[|rows| - 1]))
    ensures r.Success? && r.value.Produced? ==> |r.value.points| > 0 && DecodesTo(DataRows(rows), r.value.points)
    ensures r.Success? && isLast ==> r.value.Produced? && NoSentinel(rows)
    ensures rows != [] ==> (r.Success? <==> AllDecodable(rows, isLast))
    ensures rows != [] && r.Failure? ==> r.error == MalformedRow || (isLast && r.error == DataUnavailable)
  {
    if rows == [] then Failure(ScrapingFailed)
    else
      var scanned :- ScanRows(rows, isLast);
      if scanned.1 then Success(Produced(scanned.0)) else Success(Skipped)
  }

  predicate AllData(rows: seq<Row>) {
    forall i :: 0 <= i < |rows| ==> WellFormed(rows[i]) && !IsSentinel(rows[i])
  }

  /** Without "No results found" rows, every row is a data row. */
  lemma {:induction false} DataRowsOfData(rows: seq<Row>)
    requires NoSentinel(rows)
    ensures DataRows(rows) == rows
  {
    if rows != [] {
      assert NoSentinel(rows[1..]) by {
        forall i | 0 <= i < |rows[1..]|
          ensures !IsSentinel(rows[1..][i])
        {
          assert rows[1..][i] == rows[i + 1];
        }
      }
      DataRowsOfData(rows[1..]);
      assert rows == [rows[0]] + rows[1..];
    }
  }

  lemma {:induction false} ScanDataRows(rows: seq<Row>, isLast: bool)
    requires rows != [] && AllData(rows)
    ensures ScanRows(rows, isLast).Success?
    ensures DecodesTo(rows, ScanRows(rows, isLast).value.0)
  {
    assert WellFormed(rows[0]) && !IsSentinel(rows[0]);
    if |rows| > 1 {
      assert AllData(rows[1..]) by {
        forall i | 0 <= i < |rows[1..]|
          ensures WellFormed(rows[1..][i]) && !IsSentinel(rows[1..][i])
        {
          assert rows[1..][i] == rows[i + 1];
        }
      }
      ScanDataRows(rows[1..], isLast);
    }
    DataRowsOfData(rows);
  }

  /** A window of data rows yields one point per row, in the provider's row order. */
  lemma DataWindowInOrder(rows: seq<Row>, isLast: bool)
    requires rows != [] && AllData(rows)
    ensures DecodeWindow(rows, isLast).Success? && DecodeWindow(rows, isLast).value.Produced?
    ensures var pts := DecodeWindow(rows, isLast).value.points;
            |pts| == |rows| && forall i :: 0 <= i < |rows| ==> pts[i] == DecodeRow(rows[i]).value
  {
    ScanDataRows(rows, isLast);
  }

  predicate AllSentinels(rows: seq<Row>) {
    forall i :: 0 <= i < |rows| ==> IsSentinel(rows[i])
  }

  lemma {:induction false} ScanSentinelRows(rows: seq<Row>)
    requires rows != [] && AllSentinels(rows)
    ensures ScanRows(rows, false) == Success(([], false))
  {
    if |rows| > 1 {
      ScanSentinelRows(rows[1..]);
    }
  }

  /** A window other than the last that only says "No results found" adds nothing and
      does not abort. */
  lemma SentinelWindowSkipped(rows: seq<Row>)
    requires rows != [] && AllSentinels(rows)
    ensures DecodeWindow(rows, false) == Success(Skipped)
  {
    ScanSentinelRows(rows);
  }

  lemma {:induction false} ScanReachesSentinel(rows: seq<Row>, k: nat)
    requires k < |rows| && IsSentinel(rows[k]) && AllData(rows[..k])
    ensures ScanRows(rows, true) == Failure(DataUnavailable)
  {
    if k > 0 {
      assert rows[1..][..k - 1] == rows[..k][1..];
      assert rows[0] == rows[..k][0];
      ScanReachesSentinel(rows[1..], k - 1);
    }
  }

  /** On the last window, reaching a "No results found" row is fatal. */
  lemma SentinelFatalOnLastWindow(rows: seq<Row>, k: nat)
    requires k < |rows| && IsSentinel(rows[k]) && AllData(rows[..k])
    ensures DecodeWindow(rows, true) == Failure(DataUnavailable)
  {
    ScanReachesSentinel(rows, k);
  }

  // ---------------------------------------------------------------------------
  // Recent data

  /** The recent fetcher's row loop: every row is decoded and "No results found" is
      always fatal. */
  function DecodeAll(rows: seq<Row>): (r: Result<seq<PricePoint>>)
    ensures r.Success? ==> DecodesTo(rows, r.value) && NoSentinel(rows)
    ensures r.Success? <==> AllDecodable(rows, true)
  {
    if rows == [] then Success([])
    else
      AllDecodableCons(rows, true);
      if rows[0] == [] then Failure(MalformedRow)
      else if IsSentinel(rows[0]) then Failure(DataUnavailable)
      else match DecodeRow(rows[0])
        case Failure(e) => Failure(e)
        case Success(p) =>
          match DecodeAll(rows[1..])
          case Failure(e) => Failure(e)
          case Success(rest) =>
            DecodeCons(rows, p, rest);
            Success([p] + rest)
  }

  lemma DecodeCons(rows: seq<Row>, p: PricePoint, rest: seq<PricePoint>)
    requires rows != [] && !IsSentinel(rows[0]) && DecodeRow(rows[0]) == Success(p)
    requires DecodesTo(rows[1..], rest) && NoSentinel(rows[1..])
    ensures DecodesTo(rows, [p] + rest) && NoSentinel(rows)
  {
    assert rows == [rows[0]] + rows[1..];
    DecodesToAppend([rows[0]], [p], rows[1..], rest);
    NoSentinelCons(rows);
  }

  /** The recent table: empty is a scraping error, otherwise every row is decoded. */
  function DecodeRecent(rows: seq<Row>): (r: Result<seq<PricePoint>>)
    ensures rows == [] ==> r == Failure(ScrapingFailed)
    ensures r.Success? ==> DecodesTo(rows, r.value) && NoSentinel(rows)
    ensures rows != [] ==> (r.Success? <==> AllDecodable(rows, true))
  {
    if rows == [] then Failure(ScrapingFailed) else DecodeAll(rows)
  }

  lemma {:induction false} ScanLastIsDecodeAll(rows: seq<Row>)
    requires rows != []
    ensures ScanRows(rows, true) == (match DecodeAll(rows)
                                     case Success(p) => Success((p, true))
                                     case Failure(e) => Failure(e))
  {
    if rows[0] != [] && !IsSentinel(rows[0]) && DecodeRow(rows[0]).Success? {
      if |rows| == 1 {
        assert rows[1..] == [];
        assert [DecodeRow(rows[0]).value] + [] == [DecodeRow(rows[0]).value];
      } else {
        ScanLastIsDecodeAll(rows[1..]);
      }
    }
  }

  /** The recent decoder is the historical decoder applied to a final window. */
  lemma RecentIsLastWindow(rows: seq<Row>)
    ensures DecodeWindow(rows, true) == (match DecodeRecent(rows)
                                         case Success(p) => Success(Produced(p))
                                         case Failure(e) => Failure(e))
  {
    if rows != [] {
      ScanLastIsDecodeAll(rows);
    }
  }
}

=== FILE: errors.dfy ===
/** Failure outcomes of the certificate functions, one constructor per exception the
    Python code raises, and the Option/Result wrappers the rest of the model uses. */
module Errors {

  /** The exceptions raised by the certificate functions. `code` is the number in the
      source's "ERR#<code>" message. */
  datatype Error =
    | InvalidArgument(code: nat)      // ValueError ERR#0100, 0039, 0003, 0073, 0011, 0012, 0032, 0006, 0026, 0017
    | DateOutOfRange                  // ValueError of datetime.replace: Feb 29 moved to a common year
    | CountryNotFound                 // RuntimeError ERR#0034
    | CertificateNotFound             // RuntimeError ERR#0101
    | NoSearchResults                 // RuntimeError ERR#0043
    | ConnectionFailed(status: int)   // ConnectionError ERR#0015, carries the HTTP status
    | DataUnavailable                 // IndexError ERR#0102: "No results found" where it cannot be skipped
    | ScrapingFailed                  // RuntimeError ERR#0004: no rows in the results table
    | MalformedRow                    // IndexError/TypeError/AttributeError while reading a row's cells
    | EmptyDocument                   // the HTML parser rejects an empty response body
    | NothingFetched                  // no window produced data: final[0] or concat of nothing

  datatype Option<+T> = None | Some(value: T)

  datatype Result<+T> = Success(value: T) | Failure(error: Error) {

    predicate IsFailure() {
      Failure?
    }

    function PropagateFailure<U>(): Result<U>
      requires Failure?
    {
      Failure(error)
    }

    function Extract(): T
      requires Success?
    {
      value
    }
  }
}

=== FILE: fetch.dfy ===
/** The two fetchers, `get_certificate_recent_data` and `get_certificate_historical_data`,
    with the network abstracted: `provider` answers each request, and every run records
    the requests it sent, in order. */
module Fetch {
  import opened Errors
  import opened Dates
  import opened DateWindows
  import opened Validation
  import opened Certificates
  import opened Decoder

  /** The form fields of a request that depend on the call: `curr_id`, `header`, the
      `st_date`/`end_date` window (None for the recent view) and `interval_sec`. */
  datatype Request = Request(id: int, header: string, window: Option<Window>, interval: string)

  /** A response body: empty text, or the rows of the `curr_table` table body. */
  datatype Body = EmptyText | Html(rows: seq<Row>)

  datatype Response = Response(status: int, body: Body)

  /** A DataFrame of points indexed by date, or the JSON document
      `{name, <section>: [points]}` where the section is "recent" or "historical". */
  datatype Output = Table(points: seq<PricePoint>) | Json(name: string, section: string, points: seq<PricePoint>)

  /** The requests a call sent, in order, and how it ended. */
  datatype Run<T> = Run(sent: seq<Request>, outcome: Result<T>)

  function Header(symbol: string): string {
    symbol + " Historical Data"
  }

  function WindowRequest(c: Resolved, w: Window, interval: Interval): Request {
    Request(c.id, Header(c.symbol), Some(w), IntervalName(interval))
  }

  /** One historical window's response: a status other than 200 aborts, an empty body
      is skipped, otherwise the rows are decoded and put in the requested order. */
  function WindowStep(resp: Response, isLast: bool, order: Order): (r: Result<Option<seq<PricePoint>>>)
    ensures resp.status != 200 ==> r == Failure(ConnectionFailed(resp.status))
    ensures resp.status == 200 && resp.body.EmptyText? ==> r == Success(None)
    ensures resp.status == 200 && resp.body.Html? ==>
              && (r.Success? <==> DecodeWindow(resp.body.rows, isLast).Success?)
              && (r.Failure? ==> r.error == DecodeWindow(resp.body.rows, isLast).error)
    ensures r.Success? && r.value.Some? ==>
              && resp.body.Html?
              && DecodeWindow(resp.body.rows, isLast).Success?
              && DecodeWindow(resp.body.rows, isLast).value.Produced?
              && r.value.value == Arrange(order, DecodeWindow(resp.body.rows, isLast).value.points)
    ensures r.Success? && r.value.None? ==>
              resp.body.EmptyText? || DecodeWindow(resp.body.rows, isLast) == Success(Skipped)
  {
    if resp.status != 200 then Failure(ConnectionFailed(resp.status))
    else match resp.body
      case EmptyText => Success(None)
      case Html(rows) =>
        var y :- DecodeWindow(rows, isLast);
        match y
        case Skipped => Success(None)
        case Produced(points) => Success(Some(Arrange(order, points)))
  }

  function FrameOf(step: Option<seq<PricePoint>>): seq<seq<PricePoint>> {
    match step
    case None => []
    case Some(points) => [points]
  }

  /** The window loop: one request per window, in order; the last window is the one
      whose "No results found" is fatal. The first failure ends the call with no data.
      On success the result is the list of windows that produced data. */
  function FetchWindows(ws: seq<Window>, c: Resolved, interval: Interval, order: Order,
                        provider: Request -> Response): (run: Run<seq<seq<PricePoint>>>)
    ensures |run.sent| <= |ws|
    ensures forall i :: 0 <= i < |run.sent| ==> run.sent[i] == WindowRequest(c, ws[i], interval)
    ensures run.outcome.Success? ==> |run.sent| == |ws| && |run.outcome.value| <= |ws|
    ensures run.outcome.Failure? ==> run.sent != []
  {
    if ws == [] then Run([], Success([]))
    else
      var req := WindowRequest(c, ws[0], interval);
      match WindowStep(provider(req), |ws| == 1, order)
      case Failure(e) => Run([req], Failure(e))
      case Success(step) =>
        var rest := FetchWindows(ws[1..], c, interval, order, provider);
        var sent := [req] + rest.sent;
        assert forall i :: 0 < i < |sent| ==> sent[i] == rest.sent[i - 1];
        Run(sent,
            match rest.outcome
            case Failure(e) => Failure(e)
            case Success(frames) => Success(FrameOf(step) + frames))
  }

  /** A failed run ends with the window that failed: the last request sent is the one
      whose step gave the error. */
  lemma {:induction false} FetchFailsAtLastSent(ws: seq<Window>, c: Resolved, interval: Interval, order: Order,
                                                provider: Request -> Response)
    ensures var run := FetchWindows(ws, c, interval, order, provider);
            run.outcome.Failure? ==>
              WindowStep(provider(run.sent[|run.sent| - 1]), |run.sent| == |ws|, order) == Failure(run.outcome.error)
  {
    if ws != [] {
      var req := WindowRequest(c, ws[0], interval);
      var step := WindowStep(provider(req), |ws| == 1, order);
      var run := FetchWindows(ws, c, interval, order, provider);
      if step.Failure? {
        assert run == Run([req], Failure(step.error));
        assert run.sent[0] == req;
      } else {
        FetchFailsAtLastSent(ws[1..], c, interval, order, provider);
        var rest := FetchWindows(ws[1..], c, interval, order, provider);
        assert run.sent == [req] + rest.sent;
        if rest.outcome.Failure? {
          assert run.outcome == rest.outcome;
          assert run.sent[|run.sent| - 1] == rest.sent[|rest.sent| - 1];
          assert (|run.sent| == |ws|) == (|rest.sent| == |ws[1..]|);
        }
      }
    }
  }

  /** Every window before the one that failed was fetched and decoded without error. */
  lemma {:induction false} FetchEarlierStepsSucceeded(ws: seq<Window>, c: Resolved, interval: Interval, order: Order,
                                                      provider: Request -> Response, i: nat)
    requires i + 1 < |FetchWindows(ws, c, interval, order, provider).sent|
    ensures WindowStep(provider(FetchWindows(ws, c, interval, order, provider).sent[i]), false, order).Success?
  {
    var req := WindowRequest(c, ws[0], interval);
    var step := WindowStep(provider(req), |ws| == 1, order);
    var run := FetchWindows(ws, c, interval, order, provider);
    assert step.Success?;
    var rest := FetchWindows(ws[1..], c, interval, order, provider);
    assert run.sent == [req] + rest.sent;
    if i > 0 {
      FetchEarlierStepsSucceeded(ws[1..], c, interval, order, provider, i - 1);
      assert run.sent[i] == rest.sent[i - 1];
    }
  }

  /** What each window's response makes of it, in window order; only the last window
      is final. */
  function Steps(ws: seq<Window>, c: Resolved, interval: Interval, order: Order,
                 provider: Request -> Response): seq<Result<Option<seq<PricePoint>>>> {
    seq(|ws|, i requires 0 <= i < |ws| => WindowStep(provider(WindowRequest(c, ws[i], interval)), i == |ws| - 1, order))
  }

  predicate AllSucceed(steps: seq<Result<Option<seq<PricePoint>>>>) {
    forall i :: 0 <= i < |steps| ==> steps[i].Success?
  }

  function KeptOf(step: Result<Option<seq<PricePoint>>>): seq<seq<PricePoint>> {
    if step.Success? then FrameOf(step.value) else []
  }

  /** The points of every step that produced data, in window order. */
  function Kept(steps: seq<Result<Option<seq<PricePoint>>>>): seq<seq<PricePoint>> {
    if steps == [] then [] else KeptOf(steps[0]) + Kept(steps[1..])
  }

  /** The steps after the first window are the steps of the remaining windows. */
  lemma StepsTail(ws: seq<Window>, c: Resolved, interval: Interval, order: Order, provider: Request -> Response)
    requires ws != []
    ensures Steps(ws, c, interval, order, provider)[0]
            == WindowStep(provider(WindowRequest(c, ws[0], interval)), |ws| == 1, order)
    ensures Steps(ws, c, interval, order, provider)[1..] == Steps(ws[1..], c, interval, order, provider)
  {
    var steps := Steps(ws, c, interval, order, provider);
    var rest := Steps(ws[1..], c, interval, order, provider);
    forall i | 0 <= i < |rest|
      ensures steps[1..][i] == rest[i]
    {
      assert ws[1..][i] == ws[i + 1];
    }
  }

  lemma AllSucceedCons(steps: seq<Result<Option<seq<PricePoint>>>>)
    requires steps != []
    ensures AllSucceed(steps) <==> steps[0].Success? && AllSucceed(steps[1..])
  {
    if steps[0].Success? && AllSucceed(steps[1..]) {
      forall i | 0 < i < |steps|
        ensures steps[i].Success?
      {
        assert steps[i] == steps[1..][i - 1];
      }
    }
  }

  /** The window loop succeeds exactly when every window's step does, and then returns
      the data of the windows that produced some, in window order. */
  lemma {:induction false} FetchWindowsOutcome(ws: seq<Window>, c: Resolved, interval: Interval, order: Order,
                                               provider: Request -> Response)
    ensures FetchWindows(ws, c, interval, order, provider).outcome.Success?
            <==> AllSucceed(Steps(ws, c, interval, order, provider))
    ensures FetchWindows(ws, c, interval, order, provider).outcome.Success? ==>
              FetchWindows(ws, c, interval, order, provider).outcome.value == Kept(Steps(ws, c, interval, order, provider))
  {
    if ws != [] {
      FetchWindowsOutcome(ws[1..], c, interval, order, provider);
      StepsTail(ws, c, interval, order, provider);
      var steps := Steps(ws, c, interval, order, provider);
      AllSucceedCons(steps);
    }
  }

  /** `pd.concat`: the windows' points one after the other. */
  function Flatten(frames: seq<seq<PricePoint>>): (r: seq<PricePoint>)
    ensures frames != [] ==> |frames[0]| <= |r| && r[..|frames[0]|] == frames[0]
    ensures |frames| == 1 ==> r == frames[0]
  {
    if frames == [] then [] else frames[0] + Flatten(frames[1..])
  }

  /** Concatenation works window by window. */
  lemma {:induction false} FlattenAppend(a: seq<seq<PricePoint>>, b: seq<seq<PricePoint>>)
    ensures Flatten(a + b) == Flatten(a) + Flatten(b)
  {
    if a == [] {
      assert a + b == b;
    } else {
      assert (a + b)[0] == a[0];
      assert (a + b)[1..] == a[1..] + b;
      FlattenAppend(a[1..], b);
    }
  }

  /** The end of the historical fetcher: JSON output is only `final[0]`, the first
      window that produced data, while the table concatenates every window in order.
      With no window at all, both `final[0]` and `pd.concat` raise. */
  function Assemble(frames: seq<seq<PricePoint>>, asJson: bool, name: string): (r: Result<Output>)
    ensures r.Success? <==> frames != []
    ensures r.Failure? ==> r.error == NothingFetched
    ensures r.Success? && asJson ==> r.value == Json(name, "historical", frames[0])
    ensures r.Success? && !asJson ==> r.value == Table(Flatten(frames))
  {
    if frames == [] then Failure(NothingFetched)
    else if asJson then Success(Json(name, "historical", frames[0]))
    else Success(Table(Flatten(frames)))
  }

  /** The JSON points are the start of the table's points, and all of them when a single
      window produced data. */
  lemma JsonIsFirstPartOfTable(frames: seq<seq<PricePoint>>, name: string)
    requires frames != []
    ensures var json := Assemble(frames, true, name).value.points;
            var table := Assemble(frames, false, name).value.points;
            && json == table[..|json|]
            && (|frames| == 1 ==> json == table)
  {
  }

  /** `get_certificate_historical_data`: validate, partition, resolve the name (as the
      source does with `AsWritten`, or with the corrected lookup), fetch every window,
      assemble. */
  function HistoricalData(cat: Catalog, lookup: Lookup, args: HistoricalArgs, provider: Request -> Response): (r: Run<Output>)
    requires ParsedDatesValid(args)
    ensures ValidateHistorical(args).Failure? ==> r == Run([], Failure(ValidateHistorical(args).error))
    ensures r.outcome.Success? ==> r.sent != []
    ensures r.sent != [] ==>
              && ValidateHistorical(args).Success?
              && var q := ValidateHistorical(args).value;
              && Partition(q.fromDate, q.toDate).Success?
              && Find(cat, lookup, q.query.certificate, q.query.country).Success?
              && var c := Find(cat, lookup, q.query.certificate, q.query.country).value;
              && var ws := Partition(q.fromDate, q.toDate).value;
              && |r.sent| <= |ws|
              && (forall i :: 0 <= i < |r.sent| ==> r.sent[i] == WindowRequest(c, ws[i], q.query.interval))
              && var steps := Steps(ws, c, q.query.interval, q.query.order, provider);
              && (r.outcome.Success? <==> AllSucceed(steps) && Kept(steps) != [])
              && (r.outcome.Success? ==> r.outcome == Assemble(Kept(steps), q.query.asJson, c.name))
    ensures r.outcome.Success? ==>
              var q := ValidateHistorical(args).value;
              |r.sent| == |Partition(q.fromDate, q.toDate).value|
    ensures ValidateHistorical(args).Success? ==>
              var q := ValidateHistorical(args).value;
              Partition(q.fromDate, q.toDate).Failure? ==> r == Run([], Failure(DateOutOfRange))
    ensures ValidateHistorical(args).Success? ==>
              var q := ValidateHistorical(args).value;
              var found := Find(cat, lookup, q.query.certificate, q.query.country);
              Partition(q.fromDate, q.toDate).Success? && found.Failure? ==> r == Run([], Failure(found.error))
    ensures ValidateHistorical(args).Success? ==>
              var q := ValidateHistorical(args).value;
              var found := Find(cat, lookup, q.query.certificate, q.query.country);
              Partition(q.fromDate, q.toDate).Success? && found.Success? ==>
                var run := FetchWindows(Partition(q.fromDate, q.toDate).value, found.value, q.query.interval, q.query.order, provider);
                && r.sent == run.sent
                && r.sent != []
                && (run.outcome.Failure? ==> r.outcome == Failure(run.outcome.error))
                && (run.outcome == Success([]) ==> r.outcome == Failure(NothingFetched))
  {
    match ValidateHistorical(args)
    case Failure(e) => Run([], Failure(e))
    case Success(q) =>
      match Partition(q.fromDate, q.toDate)
      case Failure(e) => Run([], Failure(e))
      case Success(ws) =>
        match Find(cat, lookup, q.query.certificate, q.query.country)
        case Failure(e) => Run([], Failure(e))
        case Success(c) =>
          var run := FetchWindows(ws, c, q.query.interval, q.query.order, provider);
          FetchWindowsOutcome(ws, c, q.query.interval, q.query.order, provider);
          Run(run.sent,
              match run.outcome
              case Failure(e) => Failure(e)
              case Success(frames) => Assemble(frames, q.query.asJson, c.name))
  }

  function ReverseEach(frames: seq<seq<PricePoint>>): (r: seq<seq<PricePoint>>)
    ensures |r| == |frames|
    ensures forall i :: 0 <= i < |frames| ==> r[i] == Reverse(frames[i])
  {
    if frames == [] then [] else [Reverse(frames[0])] + ReverseEach(frames[1..])
  }

  function ReverseFrames(r: Result<seq<seq<PricePoint>>>): Result<seq<seq<PricePoint>>> {
    match r
    case Success(frames) => Success(ReverseEach(frames))
    case Failure(e) => Failure(e)
  }

  function ReverseStep(step: Option<seq<PricePoint>>): Option<seq<PricePoint>> {
    match step
    case None => None
    case Some(p) => Some(Reverse(p))
  }

  lemma WindowStepOrders(resp: Response, isLast: bool)
    ensures WindowStep(resp, isLast, Ascending) == (match WindowStep(resp, isLast, Descending)
                                                    case Success(step) => Success(ReverseStep(step))
                                                    case Failure(e) => Failure(e))
  {
  }

  lemma ReverseEachCons(step: Option<seq<PricePoint>>, frames: seq<seq<PricePoint>>)
    ensures FrameOf(ReverseStep(step)) + ReverseEach(frames) == ReverseEach(FrameOf(step) + frames)
  {
  }

  /** Ordering is applied window by window: asking for `ascending` sends the same
      requests as `descending` and reverses each window's points, not the whole series. */
  lemma {:induction false} OrderReversesEachWindow(ws: seq<Window>, c: Resolved, interval: Interval,
                                                   provider: Request -> Response)
    ensures FetchWindows(ws, c, interval, Ascending, provider).sent == FetchWindows(ws, c, interval, Descending, provider).sent
    ensures FetchWindows(ws, c, interval, Ascending, provider).outcome
            == ReverseFrames(FetchWindows(ws, c, interval, Descending, provider).outcome)
  {
    if ws != [] {
      var req := WindowRequest(c, ws[0], interval);
      WindowStepOrders(provider(req), |ws| == 1);
      OrderReversesEachWindow(ws[1..], c, interval, provider);
      var desc := FetchWindows(ws[1..], c, interval, Descending, provider);
      var stepDesc := WindowStep(provider(req), |ws| == 1, Descending);
      if desc.outcome.Success? && stepDesc.Success? {
        ReverseEachCons(stepDesc.value, desc.outcome.value);
      }
    }
  }

  /** For a range within twenty years (a single window), the ascending table is the
      exact reverse of the descending one. */
  lemma SingleWindowOrdersReverse(cat: Catalog, lookup: Lookup, args: HistoricalArgs, provider: Request -> Response)
    requires ParsedDatesValid(args) && !args.asJson
    requires args.fromDate.Some? && args.toDate.Some?
    requires args.toDate.value.year - args.fromDate.value.year <= MaxSpanYears
    requires args.order == "ascending"
    ensures var desc := args.(order := "descending");
            HistoricalData(cat, lookup, args, provider).sent == HistoricalData(cat, lookup, desc, provider).sent
            && (HistoricalData(cat, lookup, desc, provider).outcome.Success? ==>
                  HistoricalData(cat, lookup, args, provider).outcome.Success?
                  && HistoricalData(cat, lookup, args, provider).outcome.value.points
                     == Reverse(HistoricalData(cat, lookup, desc, provider).outcome.value.points))
  {
    var desc := args.(order := "descending");
    if ValidateHistorical(args).Success? {
      var q := ValidateHistorical(args).value;
      var qd := ValidateHistorical(desc).value;
      assert q.query.order == Ascending && qd.query.order == Descending;
      var ws := Partition(q.fromDate, q.toDate).value;
      if Find(cat, lookup, q.query.certificate, q.query.country).Success? {
        var c := Find(cat, lookup, q.query.certificate, q.query.country).value;
        OrderReversesEachWindow(ws, c, q.query.interval, provider);
        var run := FetchWindows(ws, c, q.query.interval, Descending, provider);
        if run.outcome.Success? && run.outcome.value != [] {
          PartitionShape(q.fromDate, q.toDate);
          var frames := run.outcome.value;
          assert |frames| == 1;
          assert frames[1..] == [];
          assert Flatten(frames) == frames[0] + [];
          assert Flatten(ReverseEach(frames)) == Reverse(frames[0]) + Flatten(ReverseEach(frames)[1..]);
          assert ReverseEach(frames)[1..] == [];
        }
      }
    }
  }

  // ---------------------------------------------------------------------------
  // Recent data

  /** The recent fetcher's single response: a status other than 200 aborts, an empty
      body cannot be parsed, otherwise every row is decoded and ordered. */
  function RecentPoints(resp: Response, order: Order): (r: Result<seq<PricePoint>>)
    ensures resp.status != 200 ==> r == Failure(ConnectionFailed(resp.status))
    ensures resp.status == 200 && resp.body.EmptyText? ==> r == Failure(EmptyDocument)
    ensures resp.status == 200 && resp.body.Html? ==>
              && (r.Success? <==> DecodeRecent(resp.body.rows).Success?)
              && (r.Failure? ==> r.error == DecodeRecent(resp.body.rows).error)
              && (r.Success? ==> r.value == Arrange(order, DecodeRecent(resp.body.rows).value))
  {
    if resp.status != 200 then Failure(ConnectionFailed(resp.status))
    else match resp.body
      case EmptyText => Failure(EmptyDocument)
      case Html(rows) =>
        var points :- DecodeRecent(rows);
        Success(Arrange(order, points))
  }

  /** The recent view behaves as a final historical window, except that an empty body is
      an error instead of a skip. */
  lemma RecentIsFinalWindow(resp: Response, order: Order)
    requires resp.body.Html?
    ensures WindowStep(resp, true, order) == (match RecentPoints(resp, order)
                                              case Success(p) => Success(Some(p))
                                              case Failure(e) => Failure(e))
  {
    if resp.status == 200 {
      RecentIsLastWindow(resp.body.rows);
      var rows := resp.body.rows;
      if DecodeRecent(rows).Success? {
        var points := DecodeRecent(rows).value;
        assert DecodeWindow(rows, true) == Success(Produced(points));
      }
    }
  }

  /** `get_certificate_recent_data`: validate, resolve the name (as the source does
      with `AsWritten`, or with the corrected lookup), send one request without a
      window, decode. */
  function RecentData(cat: Catalog, lookup: Lookup, args: RecentArgs, provider: Request -> Response): (r: Run<Output>)
    ensures ValidateRecent(args).Failure? ==> r == Run([], Failure(ValidateRecent(args).error))
    ensures |r.sent| <= 1
    ensures r.outcome.Success? ==> r.sent != []
    ensures r.sent != [] ==>
              && ValidateRecent(args).Success?
              && var q := ValidateRecent(args).value;
              && Find(cat, lookup, q.certificate, q.country).Success?
              && var c := Find(cat, lookup, q.certificate, q.country).value;
              && r.sent == [Request(c.id, Header(c.symbol), None, IntervalName(q.interval))]
              && var points := RecentPoints(provider(r.sent[0]), q.order);
              && (r.outcome.Success? <==> points.Success?)
              && (r.outcome.Failure? ==> r.outcome.error == points.error)
              && (r.outcome.Success? ==>
                    r.outcome.value == if q.asJson then Json(c.name, "recent", points.value) else Table(points.value))
    ensures ValidateRecent(args).Success? ==>
              var q := ValidateRecent(args).value;
              var found := Find(cat, lookup, q.certificate, q.country);
              && (found.Failure? ==> r == Run([], Failure(found.error)))
              && (found.Success? ==> r.sent != [])
  {
    match ValidateRecent(args)
    case Failure(e) => Run([], Failure(e))
    case Success(q) =>
      match Find(cat, lookup, q.certificate, q.country)
      case Failure(e) => Run([], Failure(e))
      case Success(c) =>
        var req := Request(c.id, Header(c.symbol), None, IntervalName(q.interval));
        Run([req],
            match RecentPoints(provider(req), q.order)
            case Failure(e) => Failure(e)
            case Success(points) =>
              if q.asJson then Success(Json(c.name, "recent", points)) else Success(Table(points)))
  }

  /** Swapping the source's name resolution for the corrected one changes a call only
      when the two resolutions disagree on its certificate, which happens only in the
      `idxmax` fallback. */
  lemma LookupMattersOnlyOnDisagreement(cat: Catalog, args: HistoricalArgs, recent: RecentArgs,
                                        provider: Request -> Response)
    requires ParsedDatesValid(args)
    ensures HistoricalData(cat, AsWritten, args, provider) != HistoricalData(cat, Corrected, args, provider) ==>
              && ValidateHistorical(args).Success?
              && var q := ValidateHistorical(args).value.query;
              && ResolveAsWritten(cat, q.certificate, q.country) != Resolve(cat, q.certificate, q.country)
    ensures RecentData(cat, AsWritten, recent, provider) != RecentData(cat, Corrected, recent, provider) ==>
              && ValidateRecent(recent).Success?
              && var q := ValidateRecent(recent).value;
              && ResolveAsWritten(cat, q.certificate, q.country) != Resolve(cat, q.certificate, q.country)
  {
  }
}

=== FILE: partition.dfy ===
/** The date-range partitioner of `get_certificate_historical_data`: a range is cut into
    windows whose start and end years differ by at most twenty. Every window but the
    last spans exactly twenty years; the last runs to the end of the range. */
module DateWindows {
  import opened Errors
  import opened Dates

  /** Largest difference between the year numbers of a window's start and end. */
  const MaxSpanYears := 20

  /** One request's date range, both ends included. */
  datatype Window = Window(start: Date, end: Date)

  predicate Contiguous(ws: seq<Window>) {
    forall i :: 0 <= i < |ws| - 1 ==> ws[i].end == ws[i + 1].start
  }

  /** Every window runs forward between two valid dates. */
  predicate Proper(ws: seq<Window>) {
    forall i :: 0 <= i < |ws| ==> Valid(ws[i].start) && Valid(ws[i].end) && Before(ws[i].start, ws[i].end)
  }

  predicate Within(w: Window, d: Date) {
    NotAfter(w.start, d) && NotAfter(d, w.end)
  }

  /** A window that ends on the same month and day exactly twenty years after it starts. */
  predicate SpansMaxYears(w: Window) {
    w.end == Date(w.start.year + MaxSpanYears, w.start.month, w.start.day)
  }

  /** Number of windows for a range whose years differ by `diff`. */
  function WindowCount(diff: nat): nat {
    if diff <= MaxSpanYears then 1 else (diff + MaxSpanYears - 1) / MaxSpanYears
  }

  /** The windows from `cursor` to `toDate`: while the years differ by more than twenty, a
      window of exactly twenty years is emitted and the cursor moves to its end; then
      one last window reaches `toDate`. Moving a Feb 29 cursor into a common year fails. */
  function Partition(cursor: Date, toDate: Date): (r: Result<seq<Window>>)
    requires Valid(cursor) && Valid(toDate) && Before(cursor, toDate)
    ensures r.Success? ==> |r.value| >= 1 && r.value[0].start == cursor && r.value[|r.value| - 1].end == toDate
    ensures r.Success? ==> Contiguous(r.value) && Proper(r.value)
    ensures r.Failure? ==> r.error == DateOutOfRange
    ensures toDate.year - cursor.year > MaxSpanYears && ReplaceYear(cursor, cursor.year + MaxSpanYears).Failure? ==> r.Failure?
    decreases toDate.year - cursor.year
  {
    if toDate.year - cursor.year > MaxSpanYears then
      var next :- ReplaceYear(cursor, cursor.year + MaxSpanYears);
      var rest :- Partition(next, toDate);
      Success([Window(cursor, next)] + rest)
    else
      Success([Window(cursor, toDate)])
  }

  /** Shape of the windows: a range within twenty years is one window; otherwise every
      window but the last spans exactly twenty years, window `i` starts `20 * i` years
      after `fromDate`, and there are `WindowCount` of them. */
  lemma {:induction false} PartitionShape(fromDate: Date, toDate: Date)
    requires Valid(fromDate) && Valid(toDate) && Before(fromDate, toDate)
    requires Partition(fromDate, toDate).Success?
    ensures toDate.year - fromDate.year <= MaxSpanYears ==> Partition(fromDate, toDate).value == [Window(fromDate, toDate)]
    ensures var ws := Partition(fromDate, toDate).value;
            && |ws| == WindowCount(toDate.year - fromDate.year)
            && (forall i :: 0 <= i < |ws| - 1 ==> SpansMaxYears(ws[i]))
            && (forall i :: 0 <= i < |ws| ==> ws[i].start.year == fromDate.year + MaxSpanYears * i)
    decreases toDate.year - fromDate.year
  {
    if toDate.year - fromDate.year > MaxSpanYears {
      var next := ReplaceYear(fromDate, fromDate.year + MaxSpanYears).value;
      PartitionShape(next, toDate);
      var rest := Partition(next, toDate).value;
      var ws := Partition(fromDate, toDate).value;
      assert ws == [Window(fromDate, next)] + rest;
      forall i | 0 <= i < |ws|
        ensures ws[i].start.year == fromDate.year + MaxSpanYears * i
      {
        if i > 0 {
          assert ws[i] == rest[i - 1];
        }
      }
    }
  }

  /** A start date other than Feb 29 never makes the partition fail. */
  lemma {:induction false} PartitionSucceedsOffLeapDay(fromDate: Date, toDate: Date)
    requires Valid(fromDate) && Valid(toDate) && Before(fromDate, toDate)
    requires !IsLeapDay(fromDate)
    ensures Partition(fromDate, toDate).Success?
    decreases toDate.year - fromDate.year
  {
    if toDate.year - fromDate.year > MaxSpanYears {
      var next := ReplaceYear(fromDate, fromDate.year + MaxSpanYears).value;
      PartitionSucceedsOffLeapDay(next, toDate);
    }
  }

  /** Feb 29 1880 to Jan 1 1901: the cursor would move to Feb 29 1900, which does not
      exist, so the source raises ValueError. */
  lemma LeapDayIntoCommonYearFails()
    ensures Partition(Date(1880, 2, 29), Date(1901, 1, 1)) == Failure(DateOutOfRange)
  {
    assert !IsLeapYear(1900);
  }

  /** Coverage: every day of `[fromDate, to]` lies in some window. */
  lemma {:induction false} PartitionCovers(fromDate: Date, toDate: Date, d: Date)
    requires Valid(fromDate) && Valid(toDate) && Before(fromDate, toDate)
    requires Partition(fromDate, toDate).Success?
    requires NotAfter(fromDate, d) && NotAfter(d, toDate)
    ensures exists i :: 0 <= i < |Partition(fromDate, toDate).value| && Within(Partition(fromDate, toDate).value[i], d)
    decreases toDate.year - fromDate.year
  {
    var ws := Partition(fromDate, toDate).value;
    if toDate.year - fromDate.year > MaxSpanYears {
      var next := ReplaceYear(fromDate, fromDate.year + MaxSpanYears).value;
      var rest := Partition(next, toDate).value;
      assert ws == [Window(fromDate, next)] + rest;
      if NotAfter(d, next) {
        assert Within(ws[0], d);
      } else {
        PartitionCovers(next, toDate, d);
        var i :| 0 <= i < |rest| && Within(rest[i], d);
        assert ws[i + 1] == rest[i];
      }
    } else {
      assert Within(ws[0], d);
    }
  }

  /** In contiguous forward windows, window `i` ends no later than window `j > i` starts. */
  lemma {:induction false} ContiguousOrdered(ws: seq<Window>, i: nat, j: nat)
    requires Contiguous(ws) && Proper(ws)
    requires i < j < |ws|
    ensures NotAfter(ws[i].end, ws[j].start)
    decreases j - i
  {
    if j > i + 1 {
      ContiguousOrdered(ws, i + 1, j);
      assert ws[i].end == ws[i + 1].start;
      assert Before(ws[i + 1].start, ws[i + 1].end);
      NotAfterTransitive(ws[i].end, ws[i + 1].end, ws[j].start);
    } else {
      assert ws[i].end == ws[i + 1].start;
    }
  }

  /** Every window lies inside `[fromDate, toDate]`. */
  lemma WindowInsideRange(fromDate: Date, toDate: Date, i: nat)
    requires Valid(fromDate) && Valid(toDate) && Before(fromDate, toDate)
    requires Partition(fromDate, toDate).Success?
    requires i < |Partition(fromDate, toDate).value|
    ensures var w := Partition(fromDate, toDate).value[i];
            NotAfter(fromDate, w.start) && NotAfter(w.end, toDate)
  {
    var ws := Partition(fromDate, toDate).value;
    var last := |ws| - 1;
    if i > 0 {
      ContiguousOrdered(ws, 0, i);
      NotAfterTransitive(ws[0].start, ws[0].end, ws[i].start);
    }
    if i < last {
      ContiguousOrdered(ws, i, last);
      NotAfterTransitive(ws[i].end, ws[last].start, ws[last].end);
    }
  }

  /** The windows cover exactly `[fromDate, toDate]`: a date lies in some window iff it
      lies in the range. */
  lemma PartitionCoversExactly(fromDate: Date, toDate: Date, d: Date)
    requires Valid(fromDate) && Valid(toDate) && Before(fromDate, toDate)
    requires Partition(fromDate, toDate).Success?
    ensures (exists i :: 0 <= i < |Partition(fromDate, toDate).value| && Within(Partition(fromDate, toDate).value[i], d))
            <==> NotAfter(fromDate, d) && NotAfter(d, toDate)
  {
    var ws := Partition(fromDate, toDate).value;
    if NotAfter(fromDate, d) && NotAfter(d, toDate) {
      PartitionCovers(fromDate, toDate, d);
    }
    if exists i :: 0 <= i < |ws| && Within(ws[i], d) {
      var i :| 0 <= i < |ws| && Within(ws[i], d);
      WindowInsideRange(fromDate, toDate, i);
      NotAfterTransitive(fromDate, ws[i].start, d);
      NotAfterTransitive(d, ws[i].end, toDate);
    }
  }

  /** Windows follow one another: each ends no later than any later window starts.
      Adjacent windows share their boundary day, since each starts where the previous
      one ended. */
  lemma PartitionOrdered(fromDate: Date, toDate: Date)
    requires Valid(fromDate) && Valid(toDate) && Before(fromDate, toDate)
    requires Partition(fromDate, toDate).Success?
    ensures var ws := Partition(fromDate, toDate).value;
            forall i, j :: 0 <= i < j < |ws| ==> NotAfter(ws[i].end, ws[j].start)
  {
    var ws := Partition(fromDate, toDate).value;
    forall i, j | 0 <= i < j < |ws|
      ensures NotAfter(ws[i].end, ws[j].start)
    {
      ContiguousOrdered(ws, i, j);
    }
  }

  /** `acc` followed by the windows of `r`, or `r`'s failure. */
  function Prepend(acc: seq<Window>, r: Result<seq<Window>>): Result<seq<Window>> {
    match r
    case Success(ws) => Success(acc + ws)
    case Failure(e) => Failure(e)
  }

  /** One pass of the loop: a long range is its first twenty-year window followed by the
      windows of the rest. */
  lemma PartitionStep(cursor: Date, toDate: Date)
    requires Valid(cursor) && Valid(toDate) && Before(cursor, toDate)
    requires toDate.year - cursor.year > MaxSpanYears
    requires ReplaceYear(cursor, cursor.year + MaxSpanYears).Success?
    ensures var next := ReplaceYear(cursor, cursor.year + MaxSpanYears).value;
            Partition(cursor, toDate) == Prepend([Window(cursor, next)], Partition(next, toDate))
  {
  }

  /** The loop's exit: a range within twenty years is the final window. */
  lemma PartitionLast(cursor: Date, toDate: Date)
    requires Valid(cursor) && Valid(toDate) && Before(cursor, toDate)
    requires toDate.year - cursor.year <= MaxSpanYears
    ensures Partition(cursor, toDate) == Success([Window(cursor, toDate)])
  {
  }

  lemma PrependAppend(acc: seq<Window>, w: Window, r: Result<seq<Window>>)
    ensures Prepend(acc, Prepend([w], r)) == Prepend(acc + [w], r)
  {
    if r.Success? {
      assert acc + ([w] + r.value) == (acc + [w]) + r.value;
    }
  }

  lemma PrependNothing(r: Result<seq<Window>>)
    ensures Prepend([], r) == r
  {
    if r.Success? {
      assert [] + r.value == r.value;
    }
  }

  /** One pass of the loop keeps the loop's invariant. */
  lemma LoopStep(fromDate: Date, toDate: Date, windows: seq<Window>, cursor: Date)
    requires Valid(fromDate) && Before(fromDate, toDate)
    requires Valid(cursor) && Valid(toDate) && Before(cursor, toDate)
    requires toDate.year - cursor.year > MaxSpanYears
    requires ReplaceYear(cursor, cursor.year + MaxSpanYears).Success?
    requires Partition(fromDate, toDate) == Prepend(windows, Partition(cursor, toDate))
    ensures var next := ReplaceYear(cursor, cursor.year + MaxSpanYears).value;
            && Valid(next) && Before(next, toDate)
            && Partition(fromDate, toDate) == Prepend(windows + [Window(cursor, next)], Partition(next, toDate))
  {
    var next := ReplaceYear(cursor, cursor.year + MaxSpanYears).value;
    PartitionStep(cursor, toDate);
    PrependAppend(windows, Window(cursor, next), Partition(next, toDate));
  }

  /** The source's `while flag` loop over a cursor, computing the same windows as the
      recursive definition. */
  method SplitDateRange(fromDate: Date, toDate: Date) returns (r: Result<seq<Window>>)
    requires Valid(fromDate) && Valid(toDate) && Before(fromDate, toDate)
    ensures r == Partition(fromDate, toDate)
  {
    var cursor := fromDate;
    var windows: seq<Window> := [];
    PrependNothing(Partition(fromDate, toDate));
    while toDate.year - cursor.year > MaxSpanYears
      invariant Valid(cursor) && Before(cursor, toDate)
      invariant Partition(fromDate, toDate) == Prepend(windows, Partition(cursor, toDate))
      decreases toDate.year - cursor.year
    {
      var next := ReplaceYear(cursor, cursor.year + MaxSpanYears);
      if next.Failure? {
        return Failure(next.error);
      }
      LoopStep(fromDate, toDate, windows, cursor);
      windows := windows + [Window(cursor, next.value)];
      cursor := next.value;
    }
    PartitionLast(cursor, toDate);
    windows := windows + [Window(cursor, toDate)];
    r := Success(windows);
  }
}

=== FILE: scenarios.dfy ===
/** Worked calls of the historical fetcher against a one-row catalog and scripted
    provider answers. */
module Scenarios {
  import opened Errors
  import opened Text
  import opened Dates
  import opened DateWindows
  import opened Validation
  import opened Certificates
  import opened Decoder
  import opened Fetch

  const Example := Certificate(Listing("france", "Example Cert", "", "EX1", "", "", "", ""), 123, "")
  const ExampleCatalog := Catalog([Example], ["france"])
  const ExampleResolved := Resolved("EX1", 123, "Example Cert")

  function Args(order: string): HistoricalArgs {
    HistoricalArgs("Example Cert", Some("france"), Some(Date(2018, 1, 1)), Some(Date(2019, 1, 1)), false, order, "Daily")
  }

  const OnlyWindow := Window(Date(2018, 1, 1), Date(2019, 1, 1))

  /** A provider row with the given raw values, in the provider's cell order. */
  function ProviderRow(timestamp: string, close: string, open: string, high: string, low: string): Row {
    [Cell("", Some(timestamp)), Cell(close, Some(close)), Cell(open, Some(open)), Cell(high, Some(high)), Cell(low, Some(low))]
  }

  lemma FranceKey()
    ensures CountryKey("france") == "france"
  {
    AsciiLowerFixed("france");
  }

  lemma ExampleLower()
    ensures Lower("Example Cert") == "example cert"
  {
  }

  lemma ExampleStrip()
    ensures Strip("Example Cert") == "Example Cert"
  {
    TrimStartFixed("Example Cert");
    TrimEndFixed("Example Cert");
  }

  lemma ExampleFold()
    ensures Fold("example cert") == "example cert"
  {
    AsciiLowerFixed("example cert");
  }

  lemma ExampleKeys()
    ensures CountryKey("france") == "france"
    ensures InputName("Example Cert") == "example cert"
    ensures Fold(InputName("Example Cert")) == "example cert"
    ensures NameKey("Example Cert") == "example cert"
  {
    FranceKey();
    ExampleLower();
    ExampleStrip();
    ExampleFold();
  }

  lemma ExampleResolves(name: string, country: string)
    requires CountryKey(country) == "france" && InputName(name) == "example cert"
    ensures ResolveAsWritten(ExampleCatalog, name, country) == Success(ExampleResolved)
    ensures Resolve(ExampleCatalog, name, country) == Success(ExampleResolved)
  {
    ExampleLower();
    assert Hit(Example, "france", LowerName("example cert"));
    assert IsFirstHit(ExampleCatalog.rows, "france", LowerName("example cert"), 0);
    ExactMatchResolves(ExampleCatalog, name, country, 0);
  }

  lemma ExampleValidates(order: string)
    requires order in OrderNames
    ensures ValidateHistorical(Args(order)).Success?
    ensures ValidateHistorical(Args(order)).value.fromDate == Date(2018, 1, 1)
    ensures ValidateHistorical(Args(order)).value.toDate == Date(2019, 1, 1)
    ensures Partition(Date(2018, 1, 1), Date(2019, 1, 1)) == Success([OnlyWindow])
  {
  }

  const June := PricePoint("1527811200", "10", "11", "9", "10.5")
  const January := PricePoint("1514851200", "5", "6", "4", "5.5")

  /** The provider's answer: 2018-06-01 then 2018-01-02, newest first. */
  const Answer := Response(200, Html([EncodeRow(June), EncodeRow(January)]))

  /** Two data rows on the last window, newest first, come back oldest first. */
  lemma TwoRowsAscending(p: PricePoint, q: PricePoint)
    requires CommaFree(p) && CommaFree(q)
    ensures WindowStep(Response(200, Html([EncodeRow(p), EncodeRow(q)])), true, Ascending) == Success(Some([q, p]))
  {
    DecodeEncodeRow(p);
    DecodeEncodeRow(q);
    var rows := [EncodeRow(p), EncodeRow(q)];
    assert AllData(rows);
    DataWindowInOrder(rows, true);
    var points := DecodeWindow(rows, true).value.points;
    assert points == [p, q];
    assert Reverse(points) == [q, p];
  }

  lemma AnswerStep()
    ensures WindowStep(Answer, true, Ascending) == Success(Some([January, June]))
  {
    assert CommaFree(June) && CommaFree(January);
    TwoRowsAscending(June, January);
  }

  lemma AnswerFetch(provider: Request -> Response)
    requires forall req :: provider(req) == Answer
    ensures FetchWindows([OnlyWindow], ExampleResolved, Daily, Ascending, provider)
            == Run([WindowRequest(ExampleResolved, OnlyWindow, Daily)], Success([[January, June]]))
  {
    var req := WindowRequest(ExampleResolved, OnlyWindow, Daily);
    assert provider(req) == Answer;
    AnswerStep();
    assert [OnlyWindow][1..] == [];
    assert FetchWindows([], ExampleResolved, Daily, Ascending, provider) == Run([], Success([]));
    assert FrameOf(Some([January, June])) + [] == [[January, June]];
  }

  /** The one request of the example: id 123, header "EX1 Historical Data", the whole
      range, daily. */
  lemma ExampleRequest()
    ensures WindowRequest(ExampleResolved, OnlyWindow, Daily) == Request(123, "EX1 Historical Data", Some(OnlyWindow), "Daily")
  {
  }

  /** The example call reduces to the window loop over its single window. */
  lemma ExampleRun(order: string, provider: Request -> Response)
    requires order in OrderNames
    ensures var run := FetchWindows([OnlyWindow], ExampleResolved, Daily, ParseOrder(order).value, provider);
            && HistoricalData(ExampleCatalog, AsWritten, Args(order), provider).sent == run.sent
            && (run.outcome.Failure? ==> HistoricalData(ExampleCatalog, AsWritten, Args(order), provider).outcome == Failure(run.outcome.error))
            && (run.outcome.Success? ==>
                  HistoricalData(ExampleCatalog, AsWritten, Args(order), provider).outcome == Assemble(run.outcome.value, false, "Example Cert"))
  {
    ExampleValidates(order);
    var q := ValidateHistorical(Args(order)).value;
    assert q.query == Query("Example Cert", "france", false, ParseOrder(order).value, Daily);
    ExampleKeys();
    ExampleResolves(q.query.certificate, q.query.country);
  }

  /** A one-year range sends exactly one request for that range; the two rows the
      provider sends newest first come back oldest first under `ascending`. */
  lemma OneYearAscending(provider: Request -> Response)
    requires forall req :: provider(req) == Answer
    ensures HistoricalData(ExampleCatalog, AsWritten, Args("ascending"), provider).sent == [WindowRequest(ExampleResolved, OnlyWindow, Daily)]
    ensures HistoricalData(ExampleCatalog, AsWritten, Args("ascending"), provider).outcome == Success(Table([January, June]))
  {
    ExampleRun("ascending", provider);
    AnswerFetch(provider);
    JsonIsFirstPartOfTable([[January, June]], "Example Cert");
  }

  /** A status other than 200 on the only window aborts with that status, and nothing
      else is sent. */
  lemma ServerErrorAborts(status: int, order: string, provider: Request -> Response)
    requires order in OrderNames && status != 200
    requires forall req :: provider(req).status == status
    ensures HistoricalData(ExampleCatalog, AsWritten, Args(order), provider).outcome == Failure(ConnectionFailed(status))
    ensures |HistoricalData(ExampleCatalog, AsWritten, Args(order), provider).sent| == 1
  {
    ExampleRun(order, provider);
  }

  /** "No results found" on the only (so the last) window is fatal. */
  lemma NoResultsOnOnlyWindow(order: string, provider: Request -> Response)
    requires order in OrderNames
    requires forall req :: provider(req) == Response(200, Html([[Cell(NoResults, None)]]))
    ensures HistoricalData(ExampleCatalog, AsWritten, Args(order), provider).outcome == Failure(DataUnavailable)
  {
    ExampleRun(order, provider);
    var rows: seq<Row> := [[Cell(NoResults, None)]];
    assert rows[..0] == [];
    SentinelFatalOnLastWindow(rows, 0);
  }
}

=== FILE: text.dfy ===
/** The string operations the source applies through Python's `str` methods and the
    `unidecode` package: lower-casing, stripping, accent folding, comma removal and
    substring search. Characters beyond Latin-1 are passed through unchanged. */
module Text {

  /** Upper-case letters of ASCII and of the Latin-1 supplement (U+00C0..U+00DE
      without the multiplication sign U+00D7). */
  predicate IsUpper(c: char) {
    ('A' <= c <= 'Z') || (0xC0 <= c as int <= 0xDE && c as int != 0xD7)
  }

  function LowerChar(c: char): (r: char)
    ensures !IsUpper(r)
    ensures !IsUpper(c) ==> r == c
  {
    if IsUpper(c) then (c as int + 32) as char else c
  }

  /** `str.lower()`, character by character: capitals move up by 32 code points,
      everything else is kept, and no capital is left. */
  function Lower(s: string): (r: string)
    ensures |r| == |s|
    ensures forall i :: 0 <= i < |s| ==> !IsUpper(r[i])
    ensures forall i :: 0 <= i < |s| ==> (if IsUpper(s[i]) then r[i] as int == s[i] as int + 32 else r[i] == s[i])
  {
    seq(|s|, i requires 0 <= i < |s| => LowerChar(s[i]))
  }

  /** Characters `str.strip()` removes (ASCII whitespace, the separators U+001C..U+001F,
      NEL and NO-BREAK SPACE). */
  predicate IsSpace(c: char) {
    c == ' ' || 9 <= c as int <= 13 || 0x1C <= c as int <= 0x1F || c as int == 0x85 || c as int == 0xA0
  }

  /** Drops leading whitespace: the result is a suffix of `s`, everything cut off is
      whitespace, and the result does not start with whitespace. */
  function TrimStart(s: string): (r: string)
    ensures |r| <= |s| && r == s[|s| - |r|..]
    ensures forall i :: 0 <= i < |s| - |r| ==> IsSpace(s[i])
    ensures r == [] || !IsSpace(r[0])
  {
    if s != [] && IsSpace(s[0]) then TrimStart(s[1..]) else s
  }

  /** Drops trailing whitespace: the result is a prefix of `s`, everything cut off is
      whitespace, and the result does not end with whitespace. */
  function TrimEnd(s: string): (r: string)
    ensures |r| <= |s| && r == s[..|r|]
    ensures forall i :: |r| <= i < |s| ==> IsSpace(s[i])
    ensures r == [] || !IsSpace(r[|r| - 1])
  {
    if s != [] && IsSpace(s[|s| - 1]) then TrimEnd(s[..|s| - 1]) else s
  }

  /** `str.strip()`: the result sits inside `s`, neither of its ends is whitespace, and
      everything of `s` before and after it is whitespace. */
  function Strip(s: string): (r: string)
    ensures r == [] || (!IsSpace(r[0]) && !IsSpace(r[|r| - 1]))
    ensures OccursAt(s, r, |s| - |TrimStart(s)|)
    ensures forall i :: 0 <= i < |s| - |TrimStart(s)| ==> IsSpace(s[i])
    ensures forall i :: |s| - |TrimStart(s)| + |r| <= i < |s| ==> IsSpace(s[i])
  {
    var t := TrimStart(s);
    var r := TrimEnd(t);
    SpaceAfter(s, t, r);
    r
  }

  /** A prefix `r` of a suffix `t` of `s` sits inside `s`, and what was cut after it is
      whitespace of `s` itself. */
  lemma SpaceAfter(s: string, t: string, r: string)
    requires |t| <= |s| && t == s[|s| - |t|..]
    requires |r| <= |t| && r == t[..|r|]
    requires forall i :: |r| <= i < |t| ==> IsSpace(t[i])
    ensures OccursAt(s, r, |s| - |t|)
    ensures forall i :: |s| - |t| + |r| <= i < |s| ==> IsSpace(s[i])
  {
    assert s[|s| - |t|..|s| - |t| + |r|] == t[..|r|];
    forall i | |s| - |t| + |r| <= i < |s|
      ensures IsSpace(s[i])
    {
      assert s[i] == t[i - (|s| - |t|)];
    }
  }

  lemma {:induction false} TrimStartFixed(s: string)
    requires s == [] || !IsSpace(s[0])
    ensures TrimStart(s) == s
  {
  }

  lemma {:induction false} TrimEndFixed(s: string)
    requires s == [] || !IsSpace(s[|s| - 1])
    ensures TrimEnd(s) == s
  {
  }

  /** Stripping twice is stripping once. */
  lemma StripIdempotent(s: string)
    ensures Strip(Strip(s)) == Strip(s)
  {
    var r := Strip(s);
    TrimStartFixed(r);
    TrimEndFixed(r);
  }

  /** One character as `unidecode` transliterates it, for the letters of the Latin-1
      supplement; every other character is kept as it is. */
  function FoldChar(c: char): string {
    var n := c as int;
    if n < 0xC0 || n > 0xFF then [c]
    else if 0xC0 <= n <= 0xC5 then "A"
    else if n == 0xC6 then "AE"
    else if n == 0xC7 then "C"
    else if 0xC8 <= n <= 0xCB then "E"
    else if 0xCC <= n <= 0xCF then "I"
    else if n == 0xD0 then "D"
    else if n == 0xD1 then "N"
    else if 0xD2 <= n <= 0xD6 || n == 0xD8 then "O"
    else if 0xD9 <= n <= 0xDC then "U"
    else if n == 0xDD then "Y"
    else if n == 0xDE then "Th"
    else if n == 0xDF then "ss"
    else if 0xE0 <= n <= 0xE5 then "a"
    else if n == 0xE6 then "ae"
    else if n == 0xE7 then "c"
    else if 0xE8 <= n <= 0xEB then "e"
    else if 0xEC <= n <= 0xEF then "i"
    else if n == 0xF0 then "d"
    else if n == 0xF1 then "n"
    else if 0xF2 <= n <= 0xF6 || n == 0xF8 then "o"
    else if 0xF9 <= n <= 0xFC then "u"
    else if n == 0xFD || n == 0xFF then "y"
    else if n == 0xFE then "th"
    else [c]
  }

  predicate IsAscii(s: string) {
    forall i :: 0 <= i < |s| ==> s[i] as int < 128
  }

  /** The accented and special letters of the Latin-1 supplement, U+00C0..U+00FF
      without the signs U+00D7 and U+00F7. */
  predicate IsLatinLetter(c: char) {
    0xC0 <= c as int <= 0xFF && c as int != 0xD7 && c as int != 0xF7
  }

  /** `unidecode.unidecode`: accent folding, character by character. No Latin-1 letter
      survives it, and no character is dropped. */
  function Fold(s: string): (r: string)
    ensures |r| >= |s|
    ensures forall i :: 0 <= i < |r| ==> !IsLatinLetter(r[i])
  {
    if s == [] then [] else FoldChar(s[0]) + Fold(s[1..])
  }

  lemma {:induction false} FoldAppend(a: string, b: string)
    ensures Fold(a + b) == Fold(a) + Fold(b)
  {
    if a == [] {
      assert a + b == b;
    } else {
      var x := FoldChar(a[0]);
      assert (a + b)[0] == a[0];
      assert (a + b)[1..] == a[1..] + b;
      FoldAppend(a[1..], b);
      assert Fold(a + b) == x + (Fold(a[1..]) + Fold(b));
      assert x + (Fold(a[1..]) + Fold(b)) == (x + Fold(a[1..])) + Fold(b);
    }
  }

  /** Plain ASCII text is left alone by the folding. */
  lemma {:induction false} FoldAscii(s: string)
    requires IsAscii(s)
    ensures Fold(s) == s
  {
    if s != [] {
      FoldAscii(s[1..]);
    }
  }

  /** ASCII text without capitals is its own lower-cased, folded key. */
  lemma AsciiLowerFixed(s: string)
    requires IsAscii(s) && forall i :: 0 <= i < |s| ==> !IsUpper(s[i])
    ensures Lower(s) == s && Fold(s) == s && Fold(Lower(s)) == s
  {
    FoldAscii(s);
  }

  lemma FoldCharFixed(c: char)
    ensures Fold(FoldChar(c)) == FoldChar(c)
  {
    var f := FoldChar(c);
    if IsAscii(f) {
      FoldAscii(f);
    } else {
      assert f == [c];
    }
  }

  /** Folding twice is folding once. */
  lemma {:induction false} FoldIdempotent(s: string)
    ensures Fold(Fold(s)) == Fold(s)
  {
    if s != [] {
      FoldAppend(FoldChar(s[0]), Fold(s[1..]));
      FoldCharFixed(s[0]);
      FoldIdempotent(s[1..]);
    }
  }

  /** `s.replace(',', '')`: drops the thousands separators of a numeric string. */
  function RemoveCommas(s: string): (r: string)
    ensures ',' !in r
    ensures forall c :: c != ',' ==> multiset(r)[c] == multiset(s)[c]
  {
    if s == [] then []
    else if s[0] == ',' then
      assert s == [s[0]] + s[1..];
      RemoveCommas(s[1..])
    else
      assert s == [s[0]] + s[1..];
      [s[0]] + RemoveCommas(s[1..])
  }

  /** A string that has no comma is its own comma-free form. */
  lemma {:induction false} RemoveCommasFixed(s: string)
    requires ',' !in s
    ensures RemoveCommas(s) == s
  {
    if s != [] {
      RemoveCommasFixed(s[1..]);
    }
  }

  /** Removing commas works piecewise, so separators may sit anywhere. */
  lemma {:induction false} RemoveCommasAppend(a: string, b: string)
    ensures RemoveCommas(a + b) == RemoveCommas(a) + RemoveCommas(b)
  {
    if a == [] {
      assert a + b == b;
    } else {
      assert (a + b)[1..] == a[1..] + b;
      RemoveCommasAppend(a[1..], b);
    }
  }

  predicate StartsWith(s: string, prefix: string) {
    |prefix| <= |s| && s[..|prefix|] == prefix
  }

  predicate OccursAt(hay: string, needle: string, i: int) {
    0 <= i <= |hay| - |needle| && hay[i..i + |needle|] == needle
  }

  /** Substring search, scanning `hay` from the left. */
  predicate Contains(hay: string, needle: string)
    decreases |hay|
  {
    StartsWith(hay, needle) || (hay != [] && Contains(hay[1..], needle))
  }

  /** The scan finds `needle` exactly when it occurs at some position of `hay`. */
  lemma {:induction false} ContainsIffOccurs(hay: string, needle: string)
    ensures Contains(hay, needle) <==> exists i :: OccursAt(hay, needle, i)
    decreases |hay|
  {
    if StartsWith(hay, needle) {
      assert OccursAt(hay, needle, 0);
    } else if hay == [] {
    } else {
      ContainsIffOccurs(hay[1..], needle);
      if exists i :: OccursAt(hay, needle, i) {
        var i :| OccursAt(hay, needle, i);
        assert i != 0;
        assert hay[1..][i - 1..i - 1 + |needle|] == hay[i..i + |needle|];
        assert OccursAt(hay[1..], needle, i - 1);
      }
      if exists j :: OccursAt(hay[1..], needle, j) {
        var j :| OccursAt(hay[1..], needle, j);
        assert hay[1..][j..j + |needle|] == hay[j + 1..j + 1 + |needle|];
        assert OccursAt(hay, needle, j + 1);
      }
    }
  }

  /** `str.contains(value, case=False)` on a literal value. */
  predicate ContainsIgnoringCase(hay: string, needle: string) {
    Contains(Lower(hay), Lower(needle))
  }
}

=== FILE: validation.dfy ===
/** Argument checks that both fetchers run before touching the catalog or the network. */
module Validation {
  import opened Errors
  import opened Dates

  datatype Order = Ascending | Descending
  datatype Interval = Daily | Weekly | Monthly

  /** The accepted spellings of `order` and `interval`. */
  const OrderNames: seq<string> := ["ascending", "asc", "descending", "desc"]
  const IntervalNames: seq<string> := ["Daily", "Weekly", "Monthly"]

  function ParseOrder(s: string): (r: Result<Order>)
    ensures r.Success? <==> s in OrderNames
    ensures r.Failure? ==> r.error == InvalidArgument(3)
    ensures r == Success(Ascending) <==> s in OrderNames[..2]
  {
    if s == "ascending" || s == "asc" then Success(Ascending)
    else if s == "descending" || s == "desc" then Success(Descending)
    else Failure(InvalidArgument(3))
  }

  /** The provider's `interval_sec` value for an interval. */
  function IntervalName(i: Interval): string {
    match i
    case Daily => "Daily"
    case Weekly => "Weekly"
    case Monthly => "Monthly"
  }

  function ParseInterval(s: string): (r: Result<Interval>)
    ensures r.Success? <==> s in IntervalNames
    ensures r.Failure? ==> r.error == InvalidArgument(73)
  {
    if s == [] then Failure(InvalidArgument(73))
    else if s == "Daily" then Success(Daily)
    else if s == "Weekly" then Success(Weekly)
    else if s == "Monthly" then Success(Monthly)
    else Failure(InvalidArgument(73))
  }

  /** The interval names and the parser agree in both directions. */
  lemma IntervalNameRoundTrip(s: string, i: Interval)
    ensures ParseInterval(IntervalName(i)) == Success(i)
    ensures ParseInterval(s) == Success(i) ==> IntervalName(i) == s
  {
  }

  /** Arguments of `get_certificate_recent_data`. `country` is None when the caller
      passes None. */
  datatype RecentArgs = RecentArgs(
    certificate: string, country: Option<string>, asJson: bool, order: string, interval: string)

  /** Arguments of `get_certificate_historical_data`. A date is None when its text does
      not parse as dd/mm/yyyy. */
  datatype HistoricalArgs = HistoricalArgs(
    certificate: string, country: Option<string>, fromDate: Option<Date>, toDate: Option<Date>,
    asJson: bool, order: string, interval: string)

  /** Arguments once they have passed the checks. */
  datatype Query = Query(certificate: string, country: string, asJson: bool, order: Order, interval: Interval)

  datatype HistoricalQuery = HistoricalQuery(query: Query, fromDate: Date, toDate: Date)

  /** Parsed dates are calendar dates. */
  predicate ParsedDatesValid(a: HistoricalArgs) {
    (a.fromDate.Some? ==> Valid(a.fromDate.value)) && (a.toDate.Some? ==> Valid(a.toDate.value))
  }

  /** The checks shared by both fetchers, in the source's order: certificate, country,
      order, interval. */
  function ValidateRecent(a: RecentArgs): (r: Result<Query>)
    ensures r.Success? <==> a.certificate != [] && a.country.Some? && a.order in OrderNames && a.interval in IntervalNames
    ensures a.certificate == [] ==> r == Failure(InvalidArgument(100))
    ensures a.certificate != [] && a.country.None? ==> r == Failure(InvalidArgument(39))
    ensures a.certificate != [] && a.country.Some? && a.order !in OrderNames ==> r == Failure(InvalidArgument(3))
    ensures a.certificate != [] && a.country.Some? && a.order in OrderNames && a.interval !in IntervalNames
            ==> r == Failure(InvalidArgument(73))
    ensures r.Success? ==> r.value.certificate == a.certificate && r.value.country == a.country.value
                           && r.value.asJson == a.asJson
                           && (r.value.order == Ascending <==> a.order in OrderNames[..2])
                           && IntervalName(r.value.interval) == a.interval
  {
    if a.certificate == [] then Failure(InvalidArgument(100))
    else if a.country.None? then Failure(InvalidArgument(39))
    else
      var order :- ParseOrder(a.order);
      var interval :- ParseInterval(a.interval);
      IntervalNameRoundTrip(a.interval, interval);
      Success(Query(a.certificate, a.country.value, a.asJson, order, interval))
  }

  function SharedArgs(a: HistoricalArgs): RecentArgs {
    RecentArgs(a.certificate, a.country, a.asJson, a.order, a.interval)
  }

  /** The historical fetcher's checks: the shared ones, then both dates parse
      (ERR#0011, ERR#0012) and `fromDate` is strictly before `toDate` (ERR#0032). */
  function ValidateHistorical(a: HistoricalArgs): (r: Result<HistoricalQuery>)
    requires ParsedDatesValid(a)
    ensures r.Success? <==> ValidateRecent(SharedArgs(a)).Success? && a.fromDate.Some? && a.toDate.Some?
                            && Before(a.fromDate.value, a.toDate.value)
    ensures ValidateRecent(SharedArgs(a)).Failure? ==> r == Failure(ValidateRecent(SharedArgs(a)).error)
    ensures ValidateRecent(SharedArgs(a)).Success? && a.fromDate.None? ==> r == Failure(InvalidArgument(11))
    ensures ValidateRecent(SharedArgs(a)).Success? && a.fromDate.Some? && a.toDate.None?
            ==> r == Failure(InvalidArgument(12))
    ensures r.Failure? ==> r.error.InvalidArgument?
    ensures r.Success? ==> r.value.query == ValidateRecent(SharedArgs(a)).value
                           && Valid(r.value.fromDate) && Valid(r.value.toDate)
                           && Before(r.value.fromDate, r.value.toDate)
                           && Some(r.value.fromDate) == a.fromDate && Some(r.value.toDate) == a.toDate
  {
    var query :- ValidateRecent(SharedArgs(a));
    if a.fromDate.None? then Failure(InvalidArgument(11))
    else if a.toDate.None? then Failure(InvalidArgument(12))
    else if !Before(a.fromDate.value, a.toDate.value) then Failure(InvalidArgument(32))
    else Success(HistoricalQuery(query, a.fromDate.value, a.toDate.value))
  }

  /** A range that does not move forward is rejected however good the other arguments. */
  lemma EmptyRangeRejected(a: HistoricalArgs)
    requires ParsedDatesValid(a)
    requires ValidateRecent(SharedArgs(a)).Success? && a.fromDate.Some? && a.toDate.Some?
    requires NotAfter(a.toDate.value, a.fromDate.value)
    ensures ValidateHistorical(a) == Failure(InvalidArgument(32))
  {
  }
}
